=== FILE: README.md ===
# Eco-helper bot: a Dafny model of its conversations and pickers

The Eco-helper Telegram bot does two things.

- It sends one of ten ecological tips every day, at a time and in a timezone the user picks through the `/vibrat` conversation. The time and timezone are stored in an SQLite table, and the bot keeps one daily job per user in its job queue.
- It records reminders through the `/reminder` conversation: a name, a date picked on an inline month calendar, a time picked on an inline clock, and optional extra information. The draft reminder lives in `reminder.json`.

This project models the following in Dafny:

- the callback-data codec shared by both inline pickers;
- the clock picker and the month calendar picker, including the Gregorian date arithmetic the calendar relies on;
- the JSON draft store;
- the tip schedule: the saved rows, the job queue, restoring the jobs at start-up, and firing a tip;
- the two conversations, as step functions from a state and one update to a new state and a reply.

Modules, one per file:

| module | file | models |
|---|---|---|
| `Wrappers` | wrappers.dfy | `Option` |
| `Text` | text.dfy | `str.split`, `str(int)`, `{n:02d}`, Python's `int(str)` |
| `Codec` | codec.dfy | `create_callback_data`, `separate_callback_data`, inline buttons |
| `Clock` | clock.dfy | `create_clock`, `process_clock_selection` |
| `Gregorian` | gregorian.dfy | the parts of `datetime`/`calendar` the pickers use |
| `Calendar` | calendar.dfy | `calendar.monthcalendar`, `create_calendar`, `process_calendar_selection` |
| `Drafts` | drafts.dfy | `json_editor`, `json_getter`, `get_user_timezone`, the store edit of `cancel` |
| `Tips` | tips.dfy | `TIPS`, `save_user_time`, `schedule_daily_tip`, `send_daily_tip`, restoring jobs in `main` |
| `Updates` | updates.dfy | the updates a conversation receives: a command, a callback, a text message |
| `EcoFlow` | eco_flow.dfy | the `/vibrat` conversation |
| `ReminderFlow` | reminder_flow.dfy | the `/reminder` conversation |

Conventions:

- Every exception a handler lets escape is an explicit outcome: `Calendar.Raises`, `EcoFlow.HandlerRaised` or `ReminderFlow.Raised`. The state is then left as it was. Exceptions are never ruled out by a precondition. Telegram refusing the Markdown reply of `get_name` is modelled through `ReminderFlow.Env.nameReplyAccepted`. Two kinds are not modelled: exceptions from file handling, and Telegram refusing any other request; see "## Left out".
- The conversation lemmas take what a picker press returns (`Calendar.Chosen(date)`, `Clock.Chosen(face)`) as a hypothesis about the pressed token. Which button returns what is proved in the picker modules: `Calendar.CalendarKeyboardRoundTrip`, `Calendar.DayTokenOutcome`, `Clock.ClockKeyboardRoundTrip` and `Clock.ClockTokenOutcome`.
- `main.py` lines 127-256 are a copy of `telegramcalendar.py` lines 21-149; only the spelling of the `datetime` imports differs. The table cites the `telegramcalendar.py` lines.

## Model

| member | source | states |
|---|---|---|
| Text.Split | telegramcalendar.py:24-25 | `str.split(sep)` returns at least one field, no field contains the separator, and joining the fields with the separator gives the text back |
| Text.SplitWhole | telegramcalendar.py:24-25 | text without the separator splits into itself alone |
| Text.SplitHead | telegramcalendar.py:24-25 | a separator-free field followed by the separator splits off as the first field, in front of the split of the rest |
| Text.SplitJoin | telegramcalendar.py:21-25 | joining separator-free fields and splitting again gives the same fields back |
| Text.Join | telegramcalendar.py:22 | `";".join(...)`; `Text.SplitJoin` and `Codec.CreateCallbackData` state that splitting undoes it |
| Text.Digits | telegramcalendar.py:22 | `str(n)` for n ≥ 0 is non-empty decimal digits with no leading zero, whose value is n |
| Text.IntToString | telegramcalendar.py:22 | `str(n)` is non-empty and holds digits only, apart from a leading '-' |
| Text.ZeroPad | telegramcalendar.py:44 | `{n:0Wd}` is all digits, at least W long, and has value n |
| Text.ParseIntToString | telegramcalendar.py:96-98 | `int(str(n)) == n` for every integer n |
| Text.ParseInt | telegramcalendar.py:96-98 | `int(text)` in base 10; `Text.ParseIntDigits`, `ParseIntSigned`, `ParseIntAcceptsPadded`, `ParseIntAcceptsSigned` and `ParseIntToString` state what it accepts and the value it gives |
| Text.ParseIntZeroPad | telegramcalendar.py:96-98 | `int()` reads a zero-padded number back, leading zeros included |
| Text.ParseIntPad2 | main.py:455 | `int()` reads back the `{minute:02d}` text |
| Text.ParseIntAcceptsPadded | telegramcalendar.py:96-98 | `int()` ignores surrounding ASCII whitespace around a run of digits |
| Text.ParseIntAcceptsSigned | telegramcalendar.py:96-98 | `int()` accepts a '+' or '-' sign in front of the digits, inside the whitespace |
| Text.ParseIntDigits | telegramcalendar.py:96-98 | a non-empty run of digits parses to its decimal value |
| Text.ParseIntSigned | telegramcalendar.py:96-98 | a sign followed by digits parses to the signed value |
| Text.StripUnpadded | telegramcalendar.py:96-98 | stripping leaves text alone whose ends are not whitespace |
| Text.StripPadded | telegramcalendar.py:96-98 | stripping removes exactly the whitespace around a core whose ends are not whitespace |
| Codec.CreateCallbackData | telegramcalendar.py:21-25 | when neither the action nor any argument contains ';', separating the token gives back the action followed by `str()` of each argument |
| Codec.SeparateCallbackData | telegramcalendar.py:24-25 | the fields are separator-free and join back to the token |
| Codec.NumFieldReadsBack | telegramcalendar.py:21-22 | an integer argument written into a token is read back by `int()` |
| Codec.IgnoreIsOneField | telegramcalendar.py:87-92 | "IGNORE" separates into one field |
| Clock.HourUp | telegramcalendar.py:102-103 | HOUR_UP stays on the 1..12 dial, goes up by one and wraps from 12 to 1 |
| Clock.Adjust | telegramcalendar.py:102-111 | the face after an arrow or the am/pm button; `Clock.AdjustActions` names the field each action changes, and the inverse and cycle lemmas below state how |
| Clock.HourDown | telegramcalendar.py:104-105 | HOUR_DOWN stays on the 1..12 dial, goes down by one and wraps from 1 to 12 |
| Clock.MinUp | telegramcalendar.py:106-107 | MIN_UP stays in 0..59, adds ten and wraps past 59 |
| Clock.MinDown | telegramcalendar.py:108-109 | MIN_DOWN stays in 0..59, subtracts ten and wraps below 0 |
| Clock.TogglePeriod | telegramcalendar.py:110-111 | PERIOD_TOGGLE gives "pm" exactly for "am", and "am" for everything else |
| Clock.HourDownUndoesUp | telegramcalendar.py:102-105 | HOUR_DOWN undoes HOUR_UP on the dial |
| Clock.HourUpUndoesDown | telegramcalendar.py:102-105 | HOUR_UP undoes HOUR_DOWN on the dial |
| Clock.MinDownUndoesUp | telegramcalendar.py:106-109 | MIN_DOWN undoes MIN_UP within 0..59 |
| Clock.MinUpUndoesDown | telegramcalendar.py:106-109 | MIN_UP undoes MIN_DOWN within 0..59 |
| Clock.ToggleInvolution | telegramcalendar.py:110-111 | toggling am/pm twice gives the period back |
| Clock.HourUpsAdvance | telegramcalendar.py:102-103 | n presses of HOUR_UP move the hour n steps round the 12-hour dial |
| Clock.HourUpCycle | telegramcalendar.py:102-103 | any multiple of twelve HOUR_UP presses brings the hour back |
| Clock.MinUpsAdvance | telegramcalendar.py:106-107 | n presses of MIN_UP add 10·n minutes modulo 60 |
| Clock.MinUpCycle | telegramcalendar.py:106-107 | any multiple of six MIN_UP presses brings the minute back |
| Clock.SeedFace | telegramcalendar.py:27-34 | the first clock shows the current hour shifted by the user's offset, on a 12-hour dial with the matching am/pm, and the current minute rounded down to a multiple of ten |
| Clock.ActionRow | telegramcalendar.py:36-52 | an arrow or OK row has one button per action |
| Clock.CreateClock | telegramcalendar.py:36-54 | `create_clock` for a given face; `Clock.ClockLayout` gives its rows and captions, and `Clock.ClockKeyboardRoundTrip` what each button does |
| Clock.CreateSeededClock | telegramcalendar.py:27-34 | `create_clock(tz_offset)` with no face: the clock of `Clock.SeedFace` |
| Clock.ProcessClockSelection | telegramcalendar.py:83-116 | every face a press redraws or chooses has a period that the next keyboard's tokens can carry |
| Clock.FaceTokenDecodes | telegramcalendar.py:21-25 | a clock button's token decodes to its action and the very hour, minute and period it was made from |
| Clock.ClockTokenOutcome | telegramcalendar.py:94-116 | a clock token gives back its face on TIME_OK and redraws the adjusted face for every other action |
| Clock.UnknownActionRedrawsSame | telegramcalendar.py:102-116 | an action outside the six known ones redraws the same face |
| Clock.ClockIgnoresExactlyMalformed | telegramcalendar.py:87-100 | a press is ignored exactly when the data is "IGNORE", has fewer than four fields, or has a non-integer hour or minute |
| Clock.ClockLayout | telegramcalendar.py:36-54 | the clock has rows of 3, 3, 3 and 1 buttons, and its display row shows `str(hour)`, the two-digit minute and the period, none of them active |
| Clock.IgnoreIgnored | telegramcalendar.py:87-88 | "IGNORE" is ignored |
| Clock.ClockKeyboardRoundTrip | telegramcalendar.py:36-116 | every button of `create_clock(face)` does what its caption promises: each arrow applies its adjustment, OK chooses the face, the display row is ignored |
| Gregorian.DaysIn | telegramcalendar.py:141 | months have 28 to 31 days, and February has 29 exactly in Gregorian leap years |
| Gregorian.Weekday | telegramcalendar.py:66 | the weekday is 0 (Monday) to 6 (Sunday) |
| Gregorian.NextDay | telegramcalendar.py:146 | adding a day gives a valid date, and it fails only after 9999-12-31 |
| Gregorian.PrevDay | telegramcalendar.py:143 | subtracting a day gives a valid date, and it fails only before 0001-01-01 |
| Gregorian.AddDays | telegramcalendar.py:146 | adding days gives a valid date whenever it succeeds |
| Gregorian.ClosedFormStep | telegramcalendar.py:141-147 | the closed-form count of days before year y+1 (`_days_before_year` of `datetime`) is the count before y plus the length of y |
| Gregorian.ClosedFormCounts | telegramcalendar.py:141-147 | the closed-form count of days before a year equals the year-by-year sum of Gregorian year lengths |
| Gregorian.NextDayOrdinal | telegramcalendar.py:146 | the next day is one day later in the proleptic ordinal count |
| Gregorian.PrevDayOrdinal | telegramcalendar.py:143 | the previous day is one day earlier in the ordinal count |
| Gregorian.PrevUndoesNext | telegramcalendar.py:143-146 | stepping a day forward and back returns the date |
| Gregorian.NextUndoesPrev | telegramcalendar.py:143-146 | stepping a day back and forward returns the date |
| Gregorian.AddDaysOrdinal | telegramcalendar.py:146 | adding n days moves the ordinal by n |
| Gregorian.NextDayWeekday | telegramcalendar.py:66 | the next day is the next weekday, cyclically |
| Gregorian.WeekdayInMonth | telegramcalendar.py:66 | day k of a month falls k−1 weekdays after the 1st |
| Gregorian.NextMonth | telegramcalendar.py:146-147 | the month after (y, m) is one month later in the count y·12+m |
| Gregorian.PrevMonth | telegramcalendar.py:143-144 | the month before (y, m) is one month earlier in the count y·12+m |
| Gregorian.PrevUndoesNextMonth | telegramcalendar.py:143-147 | the month before the next month is the month itself |
| Gregorian.NextUndoesPrevMonth | telegramcalendar.py:143-147 | the month after the previous month is the month itself |
| Gregorian.DayBeforeFirst | telegramcalendar.py:143 | the day before the 1st is the last day of the previous month; there is none only for January of year 1 |
| Gregorian.FourDaysAfter28th | telegramcalendar.py:146 | four days after the 28th fall on days 1 to 4 of the next month; they overflow only from December 9999 |
| Calendar.LeadBlanks | telegramcalendar.py:66-70 | the first week has 0 to 6 blank cells before the 1st |
| Calendar.TrailBlanks | telegramcalendar.py:66-70 | the last week is padded with 0 to 6 blanks to a full week |
| Calendar.MonthCells | telegramcalendar.py:66 | blanks, days and blanks fill whole weeks |
| Calendar.MonthCalendar | telegramcalendar.py:66 | `calendar.monthcalendar` returns weeks of seven cells |
| Calendar.WeekCount | telegramcalendar.py:66 | a month spans four to six weeks |
| Calendar.CellContent | telegramcalendar.py:66-72 | each cell holds its day number, or 0 outside the month |
| Calendar.DayPlacement | telegramcalendar.py:66-72 | day d sits in the cell whose column is its weekday, Monday first |
| Calendar.CreateCalendar | telegramcalendar.py:56-81 | the picker has a title row, a weekday row, one row per week of `monthcalendar` and a navigation row; week row w+2 holds the buttons of week w |
| Calendar.MonthName | telegramcalendar.py:62 | `calendar.month_name[month]` in the title row, in English (see "## Left out") |
| Calendar.CalendarLayout | telegramcalendar.py:56-81 | the picker has 7 to 9 rows: the month name and year as an inactive title, week rows of seven, then "<", a blank and ">" |
| Calendar.ProcessCalendarSelection | telegramcalendar.py:118-149 | a chosen date is always valid, and a redrawn month is always a real month |
| Calendar.MonthTokenDecodes | telegramcalendar.py:21-25 | a navigation token decodes to its action, year and month |
| Calendar.DayTokenDecodes | telegramcalendar.py:21-25 | a day token decodes to DAY, year, month and day |
| Calendar.DayTokenOutcome | telegramcalendar.py:137-141 | a day token chooses its date when it is valid, and raises otherwise |
| Calendar.ShortDayTokenIgnored | telegramcalendar.py:137-139 | DAY with only a year and a month is ignored |
| Calendar.PrevTokenOutcome | telegramcalendar.py:142-144 | "<" redraws the previous month, and raises for an invalid month or January of year 1 |
| Calendar.NextTokenOutcome | telegramcalendar.py:145-147 | ">" redraws the next month, and raises for an invalid month or December 9999 |
| Calendar.NextThenPrev | telegramcalendar.py:142-147 | ">" then "<" comes back to the same month |
| Calendar.PrevThenNext | telegramcalendar.py:142-147 | "<" then ">" comes back to the same month |
| Calendar.CalendarIgnoresExactly | telegramcalendar.py:118-149 | a press is ignored exactly when the data is "IGNORE", has fewer than three fields, has a non-integer year or month, has an unknown action, or is a DAY without a day |
| Calendar.CalendarKeyboardRoundTrip | telegramcalendar.py:56-149 | every button of `create_calendar(y, m)` does what its caption promises: a day chooses its date, a blank or title does nothing, and the arrows change the month |
| Calendar.WeekCellPress | telegramcalendar.py:66-72 | a grid button chooses its day, or does nothing when blank; this is what the week rows `WeekRow` builds mean |
| Calendar.FooterPress | telegramcalendar.py:75-79 | the navigation row goes back a month, does nothing, or goes forward a month |
| Calendar.IgnoreIgnored | telegramcalendar.py:122-123 | "IGNORE" is ignored |
| Drafts.EntryOf | main.py:86-87 | an unknown user starts with offset 0 and no reminders |
| Drafts.JsonEditor | main.py:73-95 | the write fails exactly when a key other than the name is written for a user without a draft; otherwise only that user changes, the offset is kept, and record 0 holds the value |
| Drafts.NamePushes | main.py:89-92 | writing the name pushes a record holding only the name in front of the earlier records |
| Drafts.FieldWriteKeepsRest | main.py:92 | any other write changes record 0 at that key only and keeps every later record |
| Drafts.JsonGetter | main.py:97-116 | the getter succeeds exactly when record 0 exists and holds name, date, time and id, and then returns them |
| Drafts.UserTimezone | main.py:118-125 | the offset is the stored one, or 0 for an unknown user |
| Drafts.Cancel | main.py:505-514 | `/cancel` drops the user's record 0 when there is one, and changes nothing else |
| Drafts.CancelUndoesName | main.py:89-92 | starting a draft and cancelling it restores the user's previous list |
| Drafts.GetterAfterDraft | main.py:413-503 | after name, date, time and id are written, the getter returns exactly those values, and the draft sits on top of the user's earlier reminders |
| Tips.SaveUserTime | main.py:355-360 | INSERT OR REPLACE sets the user's row and keeps every other row |
| Tips.JobName | main.py:365 | the job name `str(user_id)`; `Tips.JobNameInjective` states that it tells users apart |
| Tips.JobNameInjective | main.py:365 | distinct users get distinct job names, so removing or looking up one user's job never touches another's |
| Tips.SaveOverwrites | main.py:355-360 | a second save for the same user replaces the first |
| Tips.Named | main.py:365 | `get_jobs_by_name` returns exactly the jobs of that name |
| Tips.RemoveNamed | main.py:366-367 | removal keeps exactly the jobs of other names |
| Tips.NamedAppend | main.py:365 | looking up jobs by name distributes over concatenated queues |
| Tips.RemoveNamedAppend | main.py:366-367 | removing jobs by name distributes over concatenated queues |
| Tips.NamedAfterRemove | main.py:365-367 | no job of a name is left after its removal |
| Tips.NamedOtherAfterRemove | main.py:365-367 | removing one name leaves the jobs of every other name alone |
| Tips.RemoveNamedIdempotent | main.py:366-367 | removing the same name twice is removing it once |
| Tips.EffectiveZone | main.py:370-374 | a known zone is used as is; an unknown one falls back to Europe/Moscow, or fails when that is unknown too |
| Tips.ScheduleDailyTip | main.py:362-386 | afterwards the user has exactly one job, at the given time in the effective zone, or none when the zone or the time is invalid; other users' jobs are unchanged |
| Tips.ScheduleIdempotent | main.py:362-386 | scheduling the same time twice is scheduling it once |
| Tips.Restore | main.py:592-606 | start-up schedules exactly one job for each stored row with a known zone and a valid time, and nothing else, whatever order the rows arrive in |
| Tips.RestoreHasNoFallback | main.py:370-374 | a row with an unknown zone is skipped at start-up, although scheduling it live falls back to Europe/Moscow |
| Tips.FireTip | main.py:388-403 | the job sends nothing for a user without a row, raises for a row with an unknown zone, and otherwise sends tip number `dayOfYear % 10` of the ten |
| Tips.TipRotation | main.py:397-398 | consecutive days send consecutive tips, cyclically, and the tips repeat every ten days |
| EcoFlow.ZoneKeyboard | main.py:281-290 | the zone menu has one button per zone under its caption; the data of each is routed by the `^tz_` pattern and gives back the whole zone after the prefix |
| EcoFlow.ZoneFromCallback | main.py:302 | as written, the zone read from `tz_…` is cut at its first underscore |
| EcoFlow.ZoneFromCallbackFixed | main.py:302 | the zone read from `tz_…` is everything after the prefix |
| EcoFlow.ParseTimePair | main.py:327-339 | `map(int, text.split(sep))` unpacks into two integers exactly when there are two fields and both parse |
| EcoFlow.Commit | main.py:328-334 | accepting a time ends the conversation and confirms it in the chosen zone, Europe/Moscow by default; that zone becomes the user's row with the other rows kept, and the user has exactly one daily job, in the zone or its fallback, or none when neither is known, with other users' jobs kept |
| EcoFlow.StepReading | main.py:557-566 | one update of the `/vibrat` conversation; only a confirmation writes the users table or the job queue, and it ends the conversation with the user's row saved |
| EcoFlow.EcoStep | main.py:557-566 | the conversation as written, with the same write discipline; `Opening`, `CustomTimeAcceptedIff`, `AcceptedTimeCommits` and `PresetTimesCommit` state its branches |
| EcoFlow.EcoStepFixed | main.py:557-566 | the conversation with the corrected zone reading, with the same write discipline; `StepsAgreeIff` relates it to `EcoStep` |
| EcoFlow.Opening | main.py:267-296 | `/vibrat` offers the zone button, and any press of it opens the zone menu |
| EcoFlow.CustomTimeAcceptedIff | main.py:336-353 | a typed time ends the conversation exactly when it is two integers around ':' within 0..23 and 0..59; otherwise nothing changes |
| EcoFlow.AcceptedTimeCommits | main.py:336-347 | an accepted typed time is confirmed, stored for the user alone, and scheduled as the user's only job when the zone is usable |
| EcoFlow.TwoDigitTimeParses | main.py:339 | "HH:MM" with two-digit fields reads back as the hour and minute |
| EcoFlow.DecimalPairParses | main.py:327 | `str(h)` and `str(m)` around a separator read back as (h, m) |
| EcoFlow.PresetTimesCommit | main.py:305-334 | each preset time button commits its hour at minute 0 |
| EcoFlow.PresetToken | main.py:307-309 | the preset buttons carry their hours written with `str` |
| EcoFlow.PresetParses | main.py:319-327 | a preset button is routed to the time handler, not the zone or custom branch, and parses as its hour and minute 0 |
| EcoFlow.ZoneFromCallbackCorrectIff | main.py:302 | as written, the zone read back is the chosen zone exactly when that has no underscore |
| EcoFlow.NewYorkTruncated | main.py:284-302 | as written, the New York button yields "America/New" |
| EcoFlow.ZoneFromCallbackFixedRoundTrip | main.py:290-302 | the corrected reading gives back every zone put behind `tz_` |
| EcoFlow.FixedZoneMenuRoundTrip | main.py:281-302 | the corrected reading gives back the zone of every menu button |
| EcoFlow.StepsAgreeIff | main.py:298-353 | the conversation as written and with the corrected reading handle an update differently exactly when it is a timezone button whose zone holds an underscore |
| EcoFlow.NewYorkPicked | main.py:298-317 | as written, the New York button in the conversation chooses "America/New" and shows the time menu |
| EcoFlow.NewYorkPickedFixed | main.py:281-317 | with the corrected reading, the New York button chooses "America/New_York" and shows the time menu |
| EcoFlow.TruncatedCommit | main.py:328-334 | committing 08:00 with "America/New" chosen stores that zone, schedules the job in Europe/Moscow when the name is unknown, and the daily job then raises |
| EcoFlow.NewYorkQuirk | main.py:298-334 | in the conversation as written, the New York button then the 08:00 button store "America/New", schedules the job in Europe/Moscow, and leaves a row whose daily job raises |
| EcoFlow.NewYorkKept | main.py:298-334 | in the conversation with the corrected reading, the New York button then the 08:00 button store and schedules "America/New_York", and the daily tip is sent |
| ReminderFlow.SplitTriple | main.py:431 | three separator-free fields joined by two separators split back into the three fields |
| ReminderFlow.DateTextReadsBack | main.py:431 | the stored "%d/%m/%Y" date splits into day, month and year fields that read back |
| ReminderFlow.TimeTextReadsBack | main.py:455 | the stored "h:mm period" time splits into the hour and the two-digit minute, and both read back |
| ReminderFlow.DateText | main.py:431 | `date.strftime("%d/%m/%Y")`; `ReminderFlow.DateTextReadsBack` states that its fields read back |
| ReminderFlow.TimeText | main.py:455 | `f"{hour}:{minute:02d} {period}"`; `ReminderFlow.TimeTextReadsBack` states that its fields read back |
| ReminderFlow.GetName | main.py:413-423 | the name becomes a fresh record 0 above the user's earlier records, other users are kept, and the date question follows exactly when Telegram accepts the reply |
| ReminderFlow.SelectDate | main.py:425-445 | only a chosen date changes anything: it is written into record 0 and the time question follows; other users are kept |
| ReminderFlow.SelectTime | main.py:447-472 | only a chosen time changes anything: the time text and the reminder id are written into record 0 and the extra-information question follows; other users are kept |
| ReminderFlow.ReminderStep | main.py:568-578 | one update of the `/reminder` conversation leaves every other user's entry as it was |
| ReminderFlow.SaveReminder | main.py:486-503 | saving ends the conversation and shows the draft's name, date and time, or an apology when the draft cannot be read; non-empty extra information is written under "доп_инфо" in record 0, and otherwise the store is unchanged |
| ReminderFlow.CancelAnywhere | main.py:505-521 | `/cancel` in any phase drops record 0 and ends the conversation |
| ReminderFlow.CancelBeforeNamePopsSaved | main.py:505-511 | `/cancel` at the name question leaves no draft to drop, so it removes the head of the earlier list, the reminder saved last |
| ReminderFlow.StepKeepsDraftReady | main.py:406-503 | every step keeps record 0 holding the name from the date question on, the date from the time question on, and name, date, time and id from the extra-information question on |
| ReminderFlow.SaveSucceeds | main.py:474-503 | with the draft in step, answering the extra-information question always saves and shows record 0's name, date and time |
| ReminderFlow.NameStep | main.py:413-423 | the name pushes a draft first; then the current month is shown and the date question follows, or, when Telegram refuses the Markdown reply quoting the name, the exception escapes and the conversation stays at the name question with the draft kept |
| ReminderFlow.RefusedNamesPile | main.py:413-423 | two refused names in a row leave two drafts on top of the earlier records, the later first, with the conversation still at the name question |
| ReminderFlow.DateStep | main.py:425-445 | a picker press that chooses a date writes its date text into the draft, moves to the time question and shows the clock seeded from the current time and the user's offset |
| ReminderFlow.TimeStep | main.py:447-472 | a clock press that chooses a time writes the time text and the reminder id, moves to the extra-information question and shows the time |
| ReminderFlow.ConversationFills | main.py:413-472 | when the name reply goes through, a name, a chosen date and a chosen time fill record 0 in that order |
| ReminderFlow.DeclineSaves | main.py:474-480 | any answer but "Да" on a readable draft saves it and ends the conversation |
| ReminderFlow.ReminderEndToEnd | main.py:406-503 | a whole conversation whose name reply goes through and that declines extra information saves a reminder showing the name, the date text and the time text |

## Left out

- Telegram I/O. Sending, editing and answering messages is not modelled. A reply is a `Reply` value that names what the handler asks Telegram to show: the picker's month or face, or the confirmed time.
- Picker redraws. `process_clock_selection` and `process_calendar_selection` are plain functions that call the coroutine `query.edit_message_reply_markup` without awaiting it (telegramcalendar.py:115, 144 and 147; main.py:221, 250 and 253). With the asynchronous handlers of python-telegram-bot 20, that call only creates a coroutine, which is dropped. So an arrow press leaves the old keyboard in place, and the next press carries the old face or month. `ReminderFlow.ShowClock` and `ReminderFlow.ShowCalendar` stand for the redraw the code asks for, not for one that reaches the chat.
- Private chats only. `get_name`, `save_reminder` and `cancel` key the draft by `update.message.chat_id` (main.py:415, 487, 506). `select_date` and `select_time` key it by `query.from_user.id` (main.py:431, 453). The model uses one `user` key for both, so it assumes the chat id equals the sender id, which holds in a private chat. In a group the date and time would go to the sender's own entry.
- One conversation at a time. Both conversations are registered in handler group 0, the eco one first (main.py:588-589), and only the first matching handler of a group runs. While the eco conversation waits for a timezone or a time, its pattern-less callback and text handlers (main.py:560-564) take every callback and text, so a reminder started then gets none of its name or picker presses. `EcoFlow.EcoStep` and `ReminderFlow.ReminderStep` are each modelled as if no other conversation were active.
- Message texts are left out. The handler texts (`/start`, `/globalwarming`, `/what`, `/why`) are static and have no logic.
- Files and the database are plain values. `reminder.json` is a `Drafts.Store`, the SQLite table is a `Tips.ScheduleDb`, and the job queue is a sequence. File corruption (the `JSONDecodeError` branches) is not modelled, and a missing `reminder.json` is modelled as an empty store.
- ReminderFlow.CancelAnywhere: `cancel` opens `reminder.json` without first calling `init_json_file` (main.py:507, unlike main.py:74, 98 and 119). If `/cancel` comes before any other handler has created the file, for example at the name question on a fresh install, `FileNotFoundError` escapes and the conversation stays where it was. The model has no absent-file state, so it ends the conversation there as well.
- The clock, randomness and timezone data are parameters. `datetime.now()` is `ReminderFlow.Env` or the `now` arguments. `random.randint(0, 100000)` is `Env.draftId`. The pytz database is a set of known zone names. The day of the year in the user's zone is a parameter of `Tips.FireTip`.
- Scheduling is not modelled. Nothing runs the jobs: `Tips.FireTip` models what one run does. `schedule_removal` is treated as taking effect at once.
- Tips.Restore: the order of `fetchall()` is not fixed. The contract says only which jobs exist, not their order.
- Text.ParseIntToString: `int()` is modelled for ASCII digits and ASCII whitespace only. Python also accepts other Unicode decimal digits and Unicode whitespace.
- ReminderFlow.DateTextReadsBack: `%Y` is modelled as a zero-padded four-digit year. For years below 1000 the padding depends on the platform's `strftime`.
- Telegram's Markdown parser is not modelled. Whether it accepts the reply of `get_name`, which quotes the user's name, is the parameter `ReminderFlow.Env.nameReplyAccepted`. Every other request the handlers send is assumed to be accepted: the other Markdown texts are fixed, and the replies that quote the user's input are sent without Markdown.
- ReminderFlow.ConversationFills: it covers the path on which Telegram accepts the name reply. When the reply is refused, the conversation stays at the name question, as `ReminderFlow.NameStep` and `ReminderFlow.RefusedNamesPile` state.
- ReminderFlow.ReminderEndToEnd: it covers the path on which Telegram accepts the name reply, as `ReminderFlow.ConversationFills` does.
- Calendar.MonthName: `calendar.month_name` is modelled with English names. It follows the process locale.
- Exceptions in the eco conversation are not distinguished. A preset button whose data is malformed is `HandlerRaised`, without telling a `ValueError` apart from other exceptions.
- Non-text messages are not modelled. Such updates match no handler, as in the source.

## Findings

| source | as written | input that shows it | evidently intended | confidence | as-written member | corrected member |
|---|---|---|---|---|---|---|
| main.py:302 | `query.data.split("_")[1]` keeps only the text between the first and second underscores | the "Нью-Йорк (UTC-4)" button, data `tz_America/New_York`, yields "America/New". This is stored for the user, the job falls back to Europe/Moscow, and the daily tip raises on the unknown zone | the zone is everything after `tz_`, here "America/New_York" | high; not executed | EcoFlow.ZoneFromCallback in EcoFlow.EcoStep, shown by EcoFlow.NewYorkTruncated, EcoFlow.ZoneFromCallbackCorrectIff, EcoFlow.NewYorkPicked and EcoFlow.NewYorkQuirk | EcoFlow.ZoneFromCallbackFixed in EcoFlow.EcoStepFixed, proved by EcoFlow.ZoneFromCallbackFixedRoundTrip, EcoFlow.FixedZoneMenuRoundTrip, EcoFlow.NewYorkPickedFixed and EcoFlow.NewYorkKept |

`EcoFlow.EcoStep` is the conversation as written: it reads the zone with `ZoneFromCallback`, and `NewYorkQuirk` shows the effect on the stored row, the scheduled job and the daily tip. `EcoFlow.EcoStepFixed` is the same conversation reading the zone with `ZoneFromCallbackFixed`. `StepsAgreeIff` shows that the two differ only on a timezone button whose zone holds an underscore.

=== FILE: calendar.dfy ===
/** The inline month picker: a Monday-first grid of day buttons with
    previous/next navigation, and the stateless step that turns a pressed
    button's token into a redraw, a chosen date or an exception. */
module Calendar {
  import opened Wrappers
  import opened Text
  import opened Codec
  import opened Gregorian

  const DayAction := "DAY"
  const PrevMonthAction := "PREV_MONTH"
  const NextMonthAction := "NEXT_MONTH"

  /** What pressing a button of the picker does. The source returns
      `(False, None)` for Ignored and Redrawn alike; Redrawn also replaces
      the keyboard by the picker of the given month. Raises is an exception
      escaping the step (a ValueError or OverflowError from `datetime`). */
  datatype CalendarStep =
    | CalendarIgnored
    | Redrawn(year: int, month: int)
    | Chosen(date: Date)
    | Raises

  // ---------------------------------------------------------------------
  // The month grid
  // ---------------------------------------------------------------------

  /** `calendar.month_name[m]` in the default (English) locale. */
  function MonthName(m: int): string
    requires ValidMonth(m)
  {
    ["January", "February", "March", "April", "May", "June", "July",
     "August", "September", "October", "November", "December"][m - 1]
  }

  /** The weekday captions of the second row, Monday first. */
  const WeekdayCaptions: seq<string> := ["Пн", "Вт", "Ср", "Чт", "Пт", "Сб", "Вс"]

  /** Blank cells before the 1st: the weekday of the 1st, Monday-first. */
  function LeadBlanks(y: int, m: int): (n: int)
    requires ValidYearMonth(y, m)
    ensures 0 <= n < 7
  {
    Weekday(Date(y, m, 1))
  }

  /** Blank cells after the last day, up to the end of its week. */
  function TrailBlanks(y: int, m: int): (n: int)
    requires ValidYearMonth(y, m)
    ensures 0 <= n < 7
    ensures (LeadBlanks(y, m) + DaysIn(y, m) + n) % 7 == 0
  {
    (0 - LeadBlanks(y, m) - DaysIn(y, m)) % 7
  }

  /** `calendar.Calendar(0).itermonthdays(y, m)`: zeros for the blank
      cells, then the days 1 to the month's length, then zeros. */
  function MonthCells(y: int, m: int): (cells: seq<int>)
    requires ValidYearMonth(y, m)
    ensures |cells| == LeadBlanks(y, m) + DaysIn(y, m) + TrailBlanks(y, m)
    ensures |cells| % 7 == 0
  {
    var lead := LeadBlanks(y, m);
    var n := DaysIn(y, m);
    seq(lead, _ => 0) + seq(n, k => k + 1) + seq(TrailBlanks(y, m), _ => 0)
  }

  /** `calendar.monthcalendar(y, m)`: the cells cut into weeks of seven. */
  function MonthCalendar(y: int, m: int): (weeks: seq<seq<int>>)
    requires ValidYearMonth(y, m)
    ensures forall w :: 0 <= w < |weeks| ==> |weeks[w]| == 7
  {
    var cells := MonthCells(y, m);
    seq(|cells| / 7, w requires 0 <= w < |cells| / 7 => cells[7 * w .. 7 * w + 7])
  }

  /** A month spans four to six weeks. */
  lemma WeekCount(y: int, m: int)
    requires ValidYearMonth(y, m)
    ensures 4 <= |MonthCalendar(y, m)| <= 6
  {
  }

  /** What a cell of the grid holds: the day whose place it is, or 0
      outside the month. */
  lemma CellContent(y: int, m: int, w: int, c: int)
    requires ValidYearMonth(y, m)
    requires 0 <= w < |MonthCalendar(y, m)| && 0 <= c < 7
    ensures var k := 7 * w + c - LeadBlanks(y, m) + 1;
      MonthCalendar(y, m)[w][c] == if 1 <= k <= DaysIn(y, m) then k else 0
  {
    var cells := MonthCells(y, m);
    assert MonthCalendar(y, m)[w][c] == cells[7 * w + c];
  }

  /** Day d of the month sits in the column of its weekday, in the week
      that the blanks before the 1st and the days before d fill. */
  lemma DayPlacement(y: int, m: int, d: int)
    requires ValidDate(Date(y, m, d))
    ensures var p := LeadBlanks(y, m) + d - 1;
      && p / 7 < |MonthCalendar(y, m)|
      && MonthCalendar(y, m)[p / 7][p % 7] == d
      && p % 7 == Weekday(Date(y, m, d))
  {
    var p := LeadBlanks(y, m) + d - 1;
    CellContent(y, m, p / 7, p % 7);
    WeekdayInMonth(y, m, d);
  }

  // ---------------------------------------------------------------------
  // The keyboard
  // ---------------------------------------------------------------------

  function DayToken(y: int, m: int, d: int): string {
    CreateCallbackData(DayAction, [Num(y), Num(m), Num(d)])
  }

  function MonthToken(action: string, y: int, m: int): string {
    CreateCallbackData(action, [Num(y), Num(m)])
  }

  /** A decorative button. */
  function Blank(caption: string): Button {
    Button(caption, Ignore)
  }

  /** The button of a grid cell: a blank for 0, otherwise the day. */
  function DayButton(y: int, m: int, cell: int): Button {
    if cell == 0 then Blank(" ") else Button(IntToString(cell), DayToken(y, m, cell))
  }

  /** The navigation row of the picker of (y, m). */
  function Footer(y: int, m: int): seq<Button> {
    [Button("<", MonthToken(PrevMonthAction, y, m)), Blank(" "),
     Button(">", MonthToken(NextMonthAction, y, m))]
  }

  /** `create_calendar(year, month)`: the title, the weekday captions, one
      row per week and the navigation row. */
  function CreateCalendar(y: int, m: int): (kb: Keyboard)
    requires ValidYearMonth(y, m)
    ensures |kb| == |MonthCalendar(y, m)| + 3
    ensures forall i :: 2 <= i < |kb| - 1 ==> kb[i] == WeekRow(y, m, MonthCalendar(y, m)[i - 2])
  {
    var weeks := MonthCalendar(y, m);
    var kb := [[Blank(MonthName(m) + " " + IntToString(y))], WeekdayRow()]
      + WeekRows(y, m, weeks)
      + [Footer(y, m)];
    assert forall i :: 2 <= i < |kb| - 1 ==> kb[i] == WeekRows(y, m, weeks)[i - 2];
    kb
  }

  /** The inactive row of weekday captions, Monday first. */
  function WeekdayRow(): (row: seq<Button>)
    ensures |row| == 7 && forall c :: 0 <= c < 7 ==> row[c] == Blank(WeekdayCaptions[c])
  {
    seq(7, c requires 0 <= c < 7 => Blank(WeekdayCaptions[c]))
  }

  /** The buttons of one week, one per cell. */
  function WeekRow(y: int, m: int, week: seq<int>): (row: seq<Button>)
    ensures |row| == |week|
    ensures forall c :: 0 <= c < |week| ==> row[c] == DayButton(y, m, week[c])
  {
    seq(|week|, c requires 0 <= c < |week| => DayButton(y, m, week[c]))
  }

  /** One row of buttons per week. */
  function WeekRows(y: int, m: int, weeks: seq<seq<int>>): (rows: seq<seq<Button>>)
    ensures |rows| == |weeks|
    ensures forall w :: 0 <= w < |weeks| ==> rows[w] == WeekRow(y, m, weeks[w])
  {
    seq(|weeks|, w requires 0 <= w < |weeks| => WeekRow(y, m, weeks[w]))
  }

  /** `create_calendar()` with no arguments: the current month. */
  function CreateCurrentCalendar(now: Date): Keyboard
    requires ValidDate(now)
  {
    CreateCalendar(now.year, now.month)
  }

  /** The picker's layout: the title and weekday rows and every week row
      have seven buttons, the footer three. */
  lemma CalendarLayout(y: int, m: int)
    requires ValidYearMonth(y, m)
    ensures var kb := CreateCalendar(y, m);
      && 7 <= |kb| <= 9
      && kb[0] == [Blank(MonthName(m) + " " + IntToString(y))]
      && (forall i :: 1 <= i < |kb| - 1 ==> |kb[i]| == 7)
      && kb[|kb| - 1] == Footer(y, m)
  {
    WeekCount(y, m);
  }

  // ---------------------------------------------------------------------
  // Pressing a button
  // ---------------------------------------------------------------------

  /** The action, year and month a token decodes to, with all its fields,
      or None where the source returns `(False, None)` before looking at
      the action: the decorative token, fewer than three fields, or a year
      or month `int()` rejects. */
  function CalendarFields(token: string): Option<(string, int, int, seq<string>)> {
    if token == Ignore then None
    else
      var parts := SeparateCallbackData(token);
      if |parts| < 3 then None
      else
        match (ParseInt(parts[1]), ParseInt(parts[2]))
        case (Some(y), Some(m)) => Some((parts[0], y, m, parts))
        case _ => None
  }

  /** `process_calendar_selection`. */
  function ProcessCalendarSelection(token: string): (r: CalendarStep)
    ensures r.Chosen? ==> ValidDate(r.date)
    ensures r.Redrawn? ==> ValidYearMonth(r.year, r.month)
  {
    match CalendarFields(token)
    case None => CalendarIgnored
    case Some((action, y, m, parts)) =>
      if action == DayAction then
        if |parts| < 4 then CalendarIgnored
        else match ParseInt(parts[3])
          case None => Raises
          case Some(d) => if ValidDate(Date(y, m, d)) then Chosen(Date(y, m, d)) else Raises
      else if action == PrevMonthAction then
        if !ValidDate(Date(y, m, 1)) then Raises
        else match PrevDay(Date(y, m, 1))
          case None => Raises
          case Some(p) => Redrawn(p.year, p.month)
      else if action == NextMonthAction then
        if !ValidDate(Date(y, m, 28)) then Raises
        else match AddDays(Date(y, m, 28), 4)
          case None => Raises
          case Some(n) => Redrawn(n.year, n.month)
      else CalendarIgnored
  }

  /** A month token decodes to its action, year and month. */
  lemma MonthTokenDecodes(action: string, y: int, m: int)
    requires Delimiter !in action
    ensures CalendarFields(MonthToken(action, y, m))
         == Some((action, y, m, [action, IntToString(y), IntToString(m)]))
  {
    var token := MonthToken(action, y, m);
    var args := [Num(y), Num(m)];
    NumCarriable(y);
    NumCarriable(m);
    var parts := SeparateCallbackData(token);
    assert parts == [action, IntToString(y), IntToString(m)] by {
      assert parts == [action] + ArgTexts(args);
    }
    assert token != Ignore by {
      IgnoreIsOneField();
    }
    NumFieldReadsBack(y);
    NumFieldReadsBack(m);
  }

  /** A day token decodes to DAY, the year, the month and the day. */
  lemma DayTokenDecodes(y: int, m: int, d: int)
    ensures var parts := [DayAction, IntToString(y), IntToString(m), IntToString(d)];
      CalendarFields(DayToken(y, m, d)) == Some((DayAction, y, m, parts))
  {
    var token := DayToken(y, m, d);
    var args := [Num(y), Num(m), Num(d)];
    NumCarriable(y);
    NumCarriable(m);
    NumCarriable(d);
    var parts := SeparateCallbackData(token);
    assert parts == [DayAction, IntToString(y), IntToString(m), IntToString(d)] by {
      assert Delimiter !in DayAction;
      assert parts == [DayAction] + ArgTexts(args);
    }
    assert token != Ignore by {
      IgnoreIsOneField();
    }
    NumFieldReadsBack(y);
    NumFieldReadsBack(m);
  }

  /** A day button chooses its date when the date exists and raises otherwise. */
  lemma DayTokenOutcome(y: int, m: int, d: int)
    ensures ProcessCalendarSelection(DayToken(y, m, d))
         == if ValidDate(Date(y, m, d)) then Chosen(Date(y, m, d)) else Raises
  {
    DayTokenDecodes(y, m, d);
    NumFieldReadsBack(d);
  }

  /** A DAY token with only year and month is ignored. */
  lemma ShortDayTokenIgnored(y: int, m: int)
    ensures ProcessCalendarSelection(MonthToken(DayAction, y, m)) == CalendarIgnored
  {
    MonthTokenDecodes(DayAction, y, m);
  }

  /** "<" redraws the previous month, raising only before January of year 1
      or from a month `datetime` rejects. */
  lemma PrevTokenOutcome(y: int, m: int)
    ensures ProcessCalendarSelection(MonthToken(PrevMonthAction, y, m))
         == if !ValidYearMonth(y, m) || (y, m) == (MinYear, 1) then Raises
            else Redrawn(PrevMonth(y, m).0, PrevMonth(y, m).1)
  {
    MonthTokenDecodes(PrevMonthAction, y, m);
    if ValidYearMonth(y, m) {
      DayBeforeFirst(y, m);
    }
  }

  /** ">" redraws the next month, raising only after December of year 9999
      or from a month `datetime` rejects. */
  lemma NextTokenOutcome(y: int, m: int)
    ensures ProcessCalendarSelection(MonthToken(NextMonthAction, y, m))
         == if !ValidYearMonth(y, m) || (y, m) == (MaxYear, 12) then Raises
            else Redrawn(NextMonth(y, m).0, NextMonth(y, m).1)
  {
    MonthTokenDecodes(NextMonthAction, y, m);
    if ValidYearMonth(y, m) {
      FourDaysAfter28th(y, m);
    }
  }

  /** Going forward a month and back again returns to the month shown. */
  lemma NextThenPrev(y: int, m: int)
    requires ValidYearMonth(y, m) && (y, m) != (MaxYear, 12)
    ensures ProcessCalendarSelection(MonthToken(NextMonthAction, y, m))
         == Redrawn(NextMonth(y, m).0, NextMonth(y, m).1)
    ensures ProcessCalendarSelection(MonthToken(PrevMonthAction, NextMonth(y, m).0, NextMonth(y, m).1))
         == Redrawn(y, m)
  {
    NextTokenOutcome(y, m);
    var (ny, nm) := NextMonth(y, m);
    PrevTokenOutcome(ny, nm);
    PrevUndoesNextMonth(y, m);
  }

  /** Going back a month and forward again returns to the month shown. */
  lemma PrevThenNext(y: int, m: int)
    requires ValidYearMonth(y, m) && (y, m) != (MinYear, 1)
    ensures ProcessCalendarSelection(MonthToken(PrevMonthAction, y, m))
         == Redrawn(PrevMonth(y, m).0, PrevMonth(y, m).1)
    ensures ProcessCalendarSelection(MonthToken(NextMonthAction, PrevMonth(y, m).0, PrevMonth(y, m).1))
         == Redrawn(y, m)
  {
    PrevTokenOutcome(y, m);
    var (py, pm) := PrevMonth(y, m);
    NextTokenOutcome(py, pm);
    NextUndoesPrevMonth(y, m);
  }

  /** Malformed tokens are ignored, and so are unknown actions and DAY
      tokens without a day field; nothing else is. */
  lemma CalendarIgnoresExactly(token: string)
    ensures ProcessCalendarSelection(token) == CalendarIgnored <==>
      || token == Ignore
      || |SeparateCallbackData(token)| < 3
      || ParseInt(SeparateCallbackData(token)[1]).None?
      || ParseInt(SeparateCallbackData(token)[2]).None?
      || SeparateCallbackData(token)[0] !in {DayAction, PrevMonthAction, NextMonthAction}
      || (SeparateCallbackData(token)[0] == DayAction && |SeparateCallbackData(token)| < 4)
  {
  }

  /** What the button in row i, column j of the picker of (y, m) is meant
      to do: title, captions and blanks are inert, a day chooses its date,
      and the arrows move one month (raising past the ends of the calendar). */
  function IntendedCalendarPress(y: int, m: int, i: nat, j: nat): CalendarStep
    requires ValidYearMonth(y, m)
  {
    var weeks := MonthCalendar(y, m);
    if i < 2 || i > |weeks| + 2 then CalendarIgnored
    else if i < |weeks| + 2 then
      if j < 7 && weeks[i - 2][j] != 0 then Chosen(Date(y, m, weeks[i - 2][j])) else CalendarIgnored
    else if j == 0 then
      (if (y, m) == (MinYear, 1) then Raises else Redrawn(PrevMonth(y, m).0, PrevMonth(y, m).1))
    else if j == 2 then
      (if (y, m) == (MaxYear, 12) then Raises else Redrawn(NextMonth(y, m).0, NextMonth(y, m).1))
    else CalendarIgnored
  }

  /** Pressing any button of a rendered picker does what it is meant to. */
  lemma CalendarKeyboardRoundTrip(y: int, m: int, i: nat, j: nat)
    requires ValidYearMonth(y, m)
    requires i < |CreateCalendar(y, m)| && j < |CreateCalendar(y, m)[i]|
    ensures ProcessCalendarSelection(CreateCalendar(y, m)[i][j].token) == IntendedCalendarPress(y, m, i, j)
  {
    if i < 2 {
      HeaderRoundTrip(y, m, i, j);
    } else if i < |MonthCalendar(y, m)| + 2 {
      GridRoundTrip(y, m, i, j);
    } else {
      FooterRoundTrip(y, m, i, j);
    }
  }

  /** The title and weekday rows are inactive. */
  lemma HeaderRoundTrip(y: int, m: int, i: nat, j: nat)
    requires ValidYearMonth(y, m)
    requires i < 2 && j < |CreateCalendar(y, m)[i]|
    ensures ProcessCalendarSelection(CreateCalendar(y, m)[i][j].token) == IntendedCalendarPress(y, m, i, j)
  {
    var kb: Keyboard := CreateCalendar(y, m);
    assert kb[i][j].token == Ignore;
    IgnoreIgnored();
  }

  /** A week row's button chooses its day, or does nothing when blank. */
  lemma GridRoundTrip(y: int, m: int, i: nat, j: nat)
    requires ValidYearMonth(y, m)
    requires 2 <= i < |MonthCalendar(y, m)| + 2 && j < |CreateCalendar(y, m)[i]|
    ensures ProcessCalendarSelection(CreateCalendar(y, m)[i][j].token) == IntendedCalendarPress(y, m, i, j)
  {
    var weeks := MonthCalendar(y, m);
    var kb: Keyboard := CreateCalendar(y, m);
    assert kb[i] == WeekRow(y, m, weeks[i - 2]);
    WeekCellPress(y, m, i - 2, j);
  }

  /** The navigation row goes back, does nothing, or goes forward. */
  lemma FooterRoundTrip(y: int, m: int, i: nat, j: nat)
    requires ValidYearMonth(y, m)
    requires i == |MonthCalendar(y, m)| + 2 && j < |CreateCalendar(y, m)[i]|
    ensures ProcessCalendarSelection(CreateCalendar(y, m)[i][j].token) == IntendedCalendarPress(y, m, i, j)
  {
    var kb: Keyboard := CreateCalendar(y, m);
    assert kb[i] == Footer(y, m);
    FooterPress(y, m, j);
  }

  /** A cell of the grid: a blank is inert, a day chooses its date. */
  lemma WeekCellPress(y: int, m: int, w: int, c: int)
    requires ValidYearMonth(y, m)
    requires 0 <= w < |MonthCalendar(y, m)| && 0 <= c < 7
    ensures var cell := MonthCalendar(y, m)[w][c];
      ProcessCalendarSelection(DayButton(y, m, cell).token)
        == if cell == 0 then CalendarIgnored else Chosen(Date(y, m, cell))
  {
    var cell := MonthCalendar(y, m)[w][c];
    if cell == 0 {
      IgnoreIgnored();
    } else {
      CellContent(y, m, w, c);
      DayTokenOutcome(y, m, cell);
    }
  }

  /** The navigation row: "<" and ">" move a month, the middle is inert. */
  lemma FooterPress(y: int, m: int, j: int)
    requires ValidYearMonth(y, m) && 0 <= j < 3
    ensures ProcessCalendarSelection(Footer(y, m)[j].token)
         == if j == 0 then (if (y, m) == (MinYear, 1) then Raises else Redrawn(PrevMonth(y, m).0, PrevMonth(y, m).1))
            else if j == 2 then (if (y, m) == (MaxYear, 12) then Raises else Redrawn(NextMonth(y, m).0, NextMonth(y, m).1))
            else CalendarIgnored
  {
    if j == 0 {
      PrevTokenOutcome(y, m);
    } else if j == 1 {
      IgnoreIgnored();
    } else {
      NextTokenOutcome(y, m);
    }
  }

  /** The decorative token is ignored. */
  lemma IgnoreIgnored()
    ensures ProcessCalendarSelection(Ignore) == CalendarIgnored
  {
  }
}

=== FILE: clock.dfy ===
/** The inline 12-hour time picker: a keyboard whose arrow buttons carry
    the current (hour, minute, period) triple, and the stateless step that
    turns a pressed button's token into a redraw or a chosen time. */
module Clock {
  import opened Wrappers
  import opened Text
  import opened Codec

  /** The triple shown by the picker and carried by its buttons. */
  datatype Face = Face(hour: int, minute: int, period: string)

  /** What pressing a button of the picker does. The source returns
      `(False, None)` both for Ignored and for Redrawn; they differ in the
      side effect, which replaces the keyboard by `CreateClock(face)`. */
  datatype ClockStep =
    | Ignored
    | Redrawn(face: Face)
    | Chosen(face: Face)

  const HourUpAction := "HOUR_UP"
  const HourDownAction := "HOUR_DOWN"
  const MinUpAction := "MIN_UP"
  const MinDownAction := "MIN_DOWN"
  const PeriodToggleAction := "PERIOD_TOGGLE"
  const TimeOkAction := "TIME_OK"

  // ---------------------------------------------------------------------
  // The dial arithmetic
  // ---------------------------------------------------------------------

  /** HOUR_UP: the next hour on a 1..12 dial, from any integer. */
  function HourUp(h: int): (r: int)
    ensures 1 <= r <= 12
    ensures 1 <= h < 12 ==> r == h + 1
    ensures h == 12 ==> r == 1
  {
    h % 12 + 1
  }

  /** HOUR_DOWN: the previous hour on a 1..12 dial, from any integer. */
  function HourDown(h: int): (r: int)
    ensures 1 <= r <= 12
    ensures 1 < h <= 12 ==> r == h - 1
    ensures h == 1 ==> r == 12
  {
    (h - 2) % 12 + 1
  }

  /** MIN_UP: ten minutes later on the minute dial, from any integer. */
  function MinUp(m: int): (r: int)
    ensures 0 <= r < 60
    ensures 0 <= m < 50 ==> r == m + 10
    ensures 50 <= m < 60 ==> r == m - 50
  {
    (m + 10) % 60
  }

  /** MIN_DOWN: ten minutes earlier on the minute dial, from any integer. */
  function MinDown(m: int): (r: int)
    ensures 0 <= r < 60
    ensures 10 <= m < 60 ==> r == m - 10
    ensures 0 <= m < 10 ==> r == m + 50
  {
    (m - 10) % 60
  }

  /** PERIOD_TOGGLE: "am" becomes "pm" and everything else becomes "am". */
  function TogglePeriod(p: string): (r: string)
    ensures r == "am" || r == "pm"
    ensures r == "pm" <==> p == "am"
  {
    if p == "am" then "pm" else "am"
  }

  lemma HourDownUndoesUp(h: int)
    requires 1 <= h <= 12
    ensures HourDown(HourUp(h)) == h
  {
  }

  lemma HourUpUndoesDown(h: int)
    requires 1 <= h <= 12
    ensures HourUp(HourDown(h)) == h
  {
  }

  lemma MinDownUndoesUp(m: int)
    requires 0 <= m < 60
    ensures MinDown(MinUp(m)) == m
  {
  }

  lemma MinUpUndoesDown(m: int)
    requires 0 <= m < 60
    ensures MinUp(MinDown(m)) == m
  {
  }

  /** Toggling twice is the identity on the two periods. */
  lemma ToggleInvolution(p: string)
    requires p == "am" || p == "pm"
    ensures TogglePeriod(TogglePeriod(p)) == p
  {
  }

  /** n presses of HOUR_UP. */
  function HourUps(h: int, n: nat): int
    decreases n
  {
    if n == 0 then h else HourUp(HourUps(h, n - 1))
  }

  /** n presses of MIN_UP. */
  function MinUps(m: int, n: nat): int
    decreases n
  {
    if n == 0 then m else MinUp(MinUps(m, n - 1))
  }

  /** n presses of HOUR_UP advance a dial hour by n places modulo 12. */
  lemma {:induction false} HourUpsAdvance(h: int, n: nat)
    requires 1 <= h <= 12
    ensures HourUps(h, n) == (h - 1 + n) % 12 + 1
    decreases n
  {
    if n > 0 {
      var a := h - 1 + n - 1;
      HourUpsAdvance(h, n - 1);
      assert HourUps(h, n) == (a % 12 + 1) % 12 + 1;
      Mod12Step(a);
    }
  }

  /** Any multiple of twelve presses of HOUR_UP brings a dial hour back. */
  lemma HourUpCycle(h: int, turns: nat)
    requires 1 <= h <= 12
    ensures HourUps(h, 12 * turns) == h
  {
    HourUpsAdvance(h, 12 * turns);
    assert (h - 1 + 12 * turns) % 12 == h - 1;
  }

  /** n presses of MIN_UP, n >= 1, advance any minute by 10n modulo 60. */
  lemma {:induction false} MinUpsAdvance(m: int, n: nat)
    requires n >= 1
    ensures MinUps(m, n) == (m + 10 * n) % 60
    decreases n
  {
    if n > 1 {
      MinUpsAdvance(m, n - 1);
      Mod60Step(m + 10 * (n - 1));
    }
  }

  /** Every six presses of MIN_UP bring a dial minute back. */
  lemma MinUpCycle(m: int, turns: nat)
    requires 0 <= m < 60
    ensures MinUps(m, 6 * turns) == m
  {
    if turns > 0 {
      MinUpsAdvance(m, 6 * turns);
      assert (m + 10 * (6 * turns)) % 60 == m;
    }
  }

  lemma Mod12Step(a: int)
    ensures (a % 12 + 1) % 12 == (a + 1) % 12
  {
  }

  lemma Mod60Step(a: int)
    ensures (a % 60 + 10) % 60 == (a + 10) % 60
  {
  }

  // ---------------------------------------------------------------------
  // Seeding from the current time
  // ---------------------------------------------------------------------

  /** The 24-hour hour a face denotes. */
  function Hour24(f: Face): int {
    f.hour % 12 + (if f.period == "pm" then 12 else 0)
  }

  /** The face `create_clock(tz_offset)` shows when no hour is given: the
      current hour shifted by the offset on a 24-hour dial, shown on a
      12-hour dial, and the current minute rounded down to ten. */
  function SeedFace(nowHour: int, nowMinute: int, tzOffset: int): (f: Face)
    requires 0 <= nowHour < 24 && 0 <= nowMinute < 60
    ensures 1 <= f.hour <= 12
    ensures f.period == (if (nowHour + tzOffset) % 24 >= 12 then "pm" else "am")
    ensures Hour24(f) == (nowHour + tzOffset) % 24
    ensures f.minute % 10 == 0 && 0 <= f.minute <= 50
    ensures f.minute <= nowMinute < f.minute + 10
  {
    var h24 := (nowHour + tzOffset) % 24;
    var period := if h24 >= 12 then "pm" else "am";
    var hour := if h24 % 12 == 0 then 12 else h24 % 12;
    Face(hour, (nowMinute / 10) * 10, period)
  }

  // ---------------------------------------------------------------------
  // The keyboard
  // ---------------------------------------------------------------------

  /** The token a button of the picker carries for an action. */
  function FaceToken(action: string, f: Face): string {
    CreateCallbackData(action, [Num(f.hour), Num(f.minute), Word(f.period)])
  }

  /** The actions of the up-arrow row, the down-arrow row and the OK row,
      left to right. */
  const UpActions: seq<string> := [HourUpAction, MinUpAction, PeriodToggleAction]
  const DownActions: seq<string> := [HourDownAction, MinDownAction, PeriodToggleAction]
  const OkActions: seq<string> := [TimeOkAction]

  /** A row of buttons with one caption, one per action, each carrying the triple. */
  function ActionRow(caption: string, actions: seq<string>, f: Face): (row: seq<Button>)
    ensures |row| == |actions|
  {
    seq(|actions|, k requires 0 <= k < |actions| => Button(caption, FaceToken(actions[k], f)))
  }

  /** The display row: hour, two-digit minute and period, all decorative. */
  function DisplayRow(f: Face): seq<Button> {
    [Button(IntToString(f.hour), Ignore), Button(Pad2(f.minute), Ignore), Button(f.period, Ignore)]
  }

  /** `create_clock(hour=…, minute=…, period=…)`: up arrows, the display
      row, down arrows, OK. */
  function CreateClock(f: Face): Keyboard {
    [ActionRow("↑", UpActions, f), DisplayRow(f), ActionRow("↓", DownActions, f), ActionRow("OK", OkActions, f)]
  }

  /** `create_clock(tz_offset)` with no hour: the seeded face. */
  function CreateSeededClock(nowHour: int, nowMinute: int, tzOffset: int): Keyboard
    requires 0 <= nowHour < 24 && 0 <= nowMinute < 60
  {
    CreateClock(SeedFace(nowHour, nowMinute, tzOffset))
  }

  // ---------------------------------------------------------------------
  // Pressing a button
  // ---------------------------------------------------------------------

  /** The action and triple a token decodes to, or None where the source
      returns `(False, None)` before looking at the action: the decorative
      token, fewer than four fields, or an hour or minute `int()` rejects.
      Fields after the fourth are not looked at. */
  function ClockFields(token: string): Option<(string, Face)> {
    if token == Ignore then None
    else
      var parts := SeparateCallbackData(token);
      if |parts| < 4 then None
      else
        match (ParseInt(parts[1]), ParseInt(parts[2]))
        case (Some(h), Some(m)) => Some((parts[0], Face(h, m, parts[3])))
        case _ => None
  }

  /** The triple after an adjusting action; an unknown action keeps it. */
  function Adjust(action: string, f: Face): Face {
    if action == HourUpAction then f.(hour := HourUp(f.hour))
    else if action == HourDownAction then f.(hour := HourDown(f.hour))
    else if action == MinUpAction then f.(minute := MinUp(f.minute))
    else if action == MinDownAction then f.(minute := MinDown(f.minute))
    else if action == PeriodToggleAction then f.(period := TogglePeriod(f.period))
    else f
  }

  /** `process_clock_selection`; whatever it redraws or chooses can be
      carried by the next keyboard's tokens. */
  function ProcessClockSelection(token: string): (r: ClockStep)
    ensures !r.Ignored? ==> Carried(r.face)
  {
    match ClockFields(token)
    case None => Ignored
    case Some((action, f)) =>
      if action == TimeOkAction then Chosen(f) else Redrawn(Adjust(action, f))
  }

  /** A face whose period the codec can carry. */
  predicate Carried(f: Face) {
    Delimiter !in f.period
  }

  /** A button token decodes to the action and the very triple it was made from. */
  lemma FaceTokenDecodes(action: string, f: Face)
    requires Delimiter !in action && Carried(f)
    ensures ClockFields(FaceToken(action, f)) == Some((action, f))
  {
    FaceTokenFields(action, f);
    assert FaceToken(action, f) != Ignore by {
      IgnoreIsOneField();
    }
    NumFieldReadsBack(f.hour);
    NumFieldReadsBack(f.minute);
  }

  /** A clock token separates into the action, `str(hour)`, `str(minute)`
      and the period. */
  lemma FaceTokenFields(action: string, f: Face)
    requires Delimiter !in action && Carried(f)
    ensures SeparateCallbackData(FaceToken(action, f))
         == [action, IntToString(f.hour), IntToString(f.minute), f.period]
  {
    var args := [Num(f.hour), Num(f.minute), Word(f.period)];
    NumCarriable(f.hour);
    NumCarriable(f.minute);
    assert Carriable(args[0]) && Carriable(args[1]) && Carriable(args[2]);
    var texts := ArgTexts(args);
    assert texts[0] == IntToString(f.hour) && texts[1] == IntToString(f.minute) && texts[2] == f.period;
    assert texts == [IntToString(f.hour), IntToString(f.minute), f.period];
  }

  /** The outcome of a token built for an action: TIME_OK chooses the triple
      unchanged, every other action (known or not) redraws the adjusted one. */
  lemma ClockTokenOutcome(action: string, f: Face)
    requires Delimiter !in action && Carried(f)
    ensures ProcessClockSelection(FaceToken(action, f))
         == if action == TimeOkAction then Chosen(f) else Redrawn(Adjust(action, f))
  {
    FaceTokenDecodes(action, f);
  }

  /** An action the picker does not know redraws the same triple. */
  lemma UnknownActionRedrawsSame(action: string, f: Face)
    requires Delimiter !in action && Carried(f)
    requires action !in {HourUpAction, HourDownAction, MinUpAction, MinDownAction,
                         PeriodToggleAction, TimeOkAction}
    ensures ProcessClockSelection(FaceToken(action, f)) == Redrawn(f)
  {
    ClockTokenOutcome(action, f);
  }

  /** Malformed tokens are ignored, and only they are: the decorative token,
      fewer than four fields, or an hour or minute that is not an int. */
  lemma ClockIgnoresExactlyMalformed(token: string)
    ensures ProcessClockSelection(token) == Ignored <==>
      || token == Ignore
      || |SeparateCallbackData(token)| < 4
      || ParseInt(SeparateCallbackData(token)[1]).None?
      || ParseInt(SeparateCallbackData(token)[2]).None?
  {
  }

  /** The picker's layout: three arrows up, the display of the triple (all
      decorative), three arrows down, and OK. */
  lemma ClockLayout(f: Face)
    ensures var kb := CreateClock(f);
      && |kb| == 4 && |kb[0]| == 3 && |kb[1]| == 3 && |kb[2]| == 3 && |kb[3]| == 1
      && kb[1][0].text == IntToString(f.hour)
      && kb[1][1].text == Pad2(f.minute)
      && kb[1][2].text == f.period
      && (forall j :: 0 <= j < 3 ==> kb[1][j].token == Ignore)
  {
  }

  /** The decorative token is ignored. */
  lemma IgnoreIgnored()
    ensures ProcessClockSelection(Ignore) == Ignored
  {
  }

  /** What the button in row i, column j of the picker is meant to do: the
      up arrows step hour, minute and period forward, the down arrows step
      hour and minute back and toggle the period, the display row is inert
      and OK chooses the displayed triple. */
  function IntendedPress(f: Face, i: nat, j: nat): ClockStep
    requires i < 4 && j < 3
  {
    if i == 0 then
      Redrawn([f.(hour := HourUp(f.hour)), f.(minute := MinUp(f.minute)),
               f.(period := TogglePeriod(f.period))][j])
    else if i == 1 then Ignored
    else if i == 2 then
      Redrawn([f.(hour := HourDown(f.hour)), f.(minute := MinDown(f.minute)),
               f.(period := TogglePeriod(f.period))][j])
    else Chosen(f)
  }

  /** Pressing any button of a rendered picker does what it is meant to:
      the tokens the keyboard carries round-trip through the step. */
  lemma ClockKeyboardRoundTrip(f: Face, i: nat, j: nat)
    requires Carried(f)
    requires i < |CreateClock(f)| && j < |CreateClock(f)[i]|
    ensures ProcessClockSelection(CreateClock(f)[i][j].token) == IntendedPress(f, i, j)
  {
    if i == 1 {
      DisplayRowRoundTrip(f, j);
    } else {
      ActionRowRoundTrip(f, i, j);
    }
  }

  /** The display row is inactive. */
  lemma DisplayRowRoundTrip(f: Face, j: nat)
    requires j < 3
    ensures ProcessClockSelection(CreateClock(f)[1][j].token) == IntendedPress(f, 1, j)
  {
    assert CreateClock(f)[1][j].token == Ignore;
    IgnoreIgnored();
  }

  /** The arrow and OK rows apply their actions. */
  lemma ActionRowRoundTrip(f: Face, i: nat, j: nat)
    requires Carried(f)
    requires i < 4 && i != 1 && j < |CreateClock(f)[i]|
    ensures ProcessClockSelection(CreateClock(f)[i][j].token) == IntendedPress(f, i, j)
  {
    var caption := if i == 0 then "↑" else if i == 2 then "↓" else "OK";
    var actions := if i == 0 then UpActions else if i == 2 then DownActions else OkActions;
    assert CreateClock(f)[i] == ActionRow(caption, actions, f);
    ActionRowPress(caption, actions, f, j);
    AdjustActions(f);
  }

  /** What each of the five adjusting actions does to the face. */
  lemma AdjustActions(f: Face)
    ensures Adjust(HourUpAction, f) == f.(hour := HourUp(f.hour))
    ensures Adjust(HourDownAction, f) == f.(hour := HourDown(f.hour))
    ensures Adjust(MinUpAction, f) == f.(minute := MinUp(f.minute))
    ensures Adjust(MinDownAction, f) == f.(minute := MinDown(f.minute))
    ensures Adjust(PeriodToggleAction, f) == f.(period := TogglePeriod(f.period))
  {
  }

  /** A button of an arrow or OK row does what its action does to the face. */
  lemma ActionRowPress(caption: string, actions: seq<string>, f: Face, j: nat)
    requires Carried(f) && j < |actions| && Delimiter !in actions[j]
    ensures ProcessClockSelection(ActionRow(caption, actions, f)[j].token)
         == if actions[j] == TimeOkAction then Chosen(f) else Redrawn(Adjust(actions[j], f))
  {
    ClockTokenOutcome(actions[j], f);
  }
}

=== FILE: codec.dfy ===
/** Callback tokens carried by inline buttons: an action name and
    positional arguments joined with `;`, without any escaping. */
module Codec {
  import opened Wrappers
  import opened Text

  const Delimiter: char := ';'

  /** The token of decorative buttons; pickers ignore it. */
  const Ignore: string := "IGNORE"

  /** A positional argument: the pickers pass ints and the period string. */
  datatype Arg = Num(n: int) | Word(w: string)

  /** `str(arg)` */
  function ArgText(a: Arg): string {
    match a
    case Num(n) => IntToString(n)
    case Word(w) => w
  }

  function ArgTexts(args: seq<Arg>): (texts: seq<string>)
    ensures |texts| == |args|
    ensures forall i :: 0 <= i < |args| ==> texts[i] == ArgText(args[i])
  {
    seq(|args|, i requires 0 <= i < |args| => ArgText(args[i]))
  }

  /** An argument the codec can carry: its text holds no delimiter. */
  predicate Carriable(a: Arg) {
    Delimiter !in ArgText(a)
  }

  /** An inline button: its caption and the token it sends when pressed. */
  datatype Button = Button(text: string, token: string)

  /** Rows of buttons, top to bottom. */
  type Keyboard = seq<seq<Button>>

  /** `create_callback_data(action, *args)` */
  function CreateCallbackData(action: string, args: seq<Arg>): (token: string)
    ensures Delimiter !in action && (forall i :: 0 <= i < |args| ==> Carriable(args[i])) ==>
      SeparateCallbackData(token) == [action] + ArgTexts(args)
  {
    var parts := [action] + ArgTexts(args);
    if Delimiter !in action && (forall i :: 0 <= i < |args| ==> Carriable(args[i])) then
      assert SeparatorFree(parts, Delimiter) by {
        forall i | 0 <= i < |parts| ensures Delimiter !in parts[i] {
          if i > 0 {
            assert parts[i] == ArgText(args[i - 1]);
          }
        }
      }
      SplitJoin(parts, Delimiter);
      Join(parts, Delimiter)
    else
      Join(parts, Delimiter)
  }

  /** `separate_callback_data(token)`: the fields between delimiters; joining
      them again gives back the token. */
  function SeparateCallbackData(token: string): (parts: seq<string>)
    ensures |parts| >= 1
    ensures forall i :: 0 <= i < |parts| ==> Delimiter !in parts[i]
    ensures Join(parts, Delimiter) == token
  {
    Split(token, Delimiter)
  }

  /** Integer arguments never contain the delimiter. */
  lemma NumCarriable(n: int)
    ensures Carriable(Num(n))
  {
  }

  /** The field of an integer argument reads back as that integer. */
  lemma NumFieldReadsBack(n: int)
    ensures ParseInt(ArgText(Num(n))) == Some(n)
  {
    ParseIntToString(n);
  }

  /** The decorative token decodes to one field, so every picker's
      field-count guard rejects it as well. */
  lemma IgnoreIsOneField()
    ensures SeparateCallbackData(Ignore) == [Ignore]
  {
    SplitWhole(Ignore, Delimiter);
  }
}

=== FILE: drafts.dfy ===
/** The reminder store kept in `reminder.json`: under the top-level key
    "напоминания", each user id maps to a timezone offset and a list of
    reminder records. The list works as a stack whose head, record 0, is
    the draft being filled in. */
module Drafts {
  import opened Wrappers

  /** A JSON value written into a record: the handlers write strings and
      the integer reminder id. */
  datatype Value = Text(s: string) | Number(n: int)

  /** One reminder: field name to value. */
  type Record = map<string, Value>

  /** The entry of one user: "часовой_пояс" and "напоминания". */
  datatype UserEntry = UserEntry(offset: int, records: seq<Record>)

  /** The "напоминания" object: user id (as a string) to entry. */
  type Store = map<string, UserEntry>

  const NameKey := "название"
  const DateKey := "дата"
  const TimeKey := "время"
  const IdKey := "id"
  const InfoKey := "доп_инфо"

  /** The entry `json_editor` works on: the stored one, or a fresh
      {offset 0, no records} for a user not seen before. */
  function EntryOf(store: Store, user: string): (e: UserEntry)
    ensures user !in store ==> e == UserEntry(0, [])
  {
    if user in store then store[user] else UserEntry(0, [])
  }

  /** `json_editor(user, key, value)`. Writing "название" pushes a fresh
      record; every write then sets the key on record 0. None is the
      IndexError of writing any other key while the user has no record. */
  function JsonEditor(store: Store, user: string, key: string, value: Value): (r: Option<Store>)
    ensures r.None? <==> key != NameKey && EntryOf(store, user).records == []
    ensures r.Some? ==>
      && r.value.Keys == store.Keys + {user}
      && (forall u :: u in store && u != user ==> r.value[u] == store[u])
      && r.value[user].offset == EntryOf(store, user).offset
      && |r.value[user].records| > 0
      && key in r.value[user].records[0]
      && r.value[user].records[0][key] == value
  {
    var e := EntryOf(store, user);
    var records := if key == NameKey then [map[]] + e.records else e.records;
    if |records| == 0 then None
    else
      var head := records[0][key := value];
      Some(store[user := UserEntry(e.offset, [head] + records[1..])])
  }

  /** Writing "название" pushes a record holding only the name in front
      of the user's earlier records, which are kept unchanged. */
  lemma NamePushes(store: Store, user: string, value: Value)
    ensures JsonEditor(store, user, NameKey, value).Some?
    ensures JsonEditor(store, user, NameKey, value).value[user].records
         == [map[NameKey := value]] + EntryOf(store, user).records
  {
  }

  /** Writing any other key changes record 0 at that key only: the other
      fields of record 0 and every later record are kept. */
  lemma FieldWriteKeepsRest(store: Store, user: string, key: string, value: Value)
    requires key != NameKey && EntryOf(store, user).records != []
    ensures var before := EntryOf(store, user).records;
      var after := JsonEditor(store, user, key, value).value[user].records;
      && |after| == |before|
      && after[1..] == before[1..]
      && after[0].Keys == before[0].Keys + {key}
      && (forall k :: k in before[0] && k != key ==> after[0][k] == before[0][k])
  {
  }

  /** `json_getter(user)`: name, date, time and id of record 0. None where
      the source raises: no entry for the user, an empty list (ValueError),
      or a record 0 lacking one of the four fields (KeyError). */
  function JsonGetter(store: Store, user: string): (r: Option<(Value, Value, Value, Value)>)
    ensures r.Some? <==>
      && user in store && store[user].records != []
      && NameKey in store[user].records[0] && DateKey in store[user].records[0]
      && TimeKey in store[user].records[0] && IdKey in store[user].records[0]
    ensures r.Some? ==> var rec := store[user].records[0];
      r.value == (rec[NameKey], rec[DateKey], rec[TimeKey], rec[IdKey])
  {
    if user !in store || store[user].records == [] then None
    else
      var rec := store[user].records[0];
      if NameKey in rec && DateKey in rec && TimeKey in rec && IdKey in rec then
        Some((rec[NameKey], rec[DateKey], rec[TimeKey], rec[IdKey]))
      else None
  }

  /** `get_user_timezone(user)`: the stored offset, 0 for an unknown user. */
  function UserTimezone(store: Store, user: string): (offset: int)
    ensures user !in store ==> offset == 0
    ensures offset == EntryOf(store, user).offset
  {
    if user in store then store[user].offset else 0
  }

  /** `cancel`: drops record 0 of the user, if there is one; nothing else changes. */
  function Cancel(store: Store, user: string): (r: Store)
    ensures r.Keys == store.Keys
    ensures forall u :: u in store && u != user ==> r[u] == store[u]
    ensures user in store && store[user].records != [] ==>
      r[user] == store[user].(records := store[user].records[1..])
    ensures user !in store || store[user].records == [] ==> r == store
  {
    if user in store && store[user].records != [] then
      store[user := store[user].(records := store[user].records[1..])]
    else store
  }

  /** Starting a draft and cancelling it gives back the user's previous
      list; a user seen for the first time keeps an empty entry. */
  lemma CancelUndoesName(store: Store, user: string, value: Value)
    ensures var s1 := JsonEditor(store, user, NameKey, value).value;
      Cancel(s1, user) == store[user := EntryOf(store, user)]
  {
    NamePushes(store, user, value);
    var s1 := JsonEditor(store, user, NameKey, value).value;
    assert s1[user].records[1..] == EntryOf(store, user).records;
  }

  /** Field writes after the name never disturb it, so after name, date,
      time and id the getter returns exactly the values written, and the
      draft sits on top of the user's earlier records. */
  lemma GetterAfterDraft(store: Store, user: string, name: Value, date: Value, time: Value, id: Value)
    ensures var s1 := JsonEditor(store, user, NameKey, name).value;
      var s2 := JsonEditor(s1, user, DateKey, date).value;
      var s3 := JsonEditor(s2, user, TimeKey, time).value;
      var s4 := JsonEditor(s3, user, IdKey, id).value;
      && JsonGetter(s4, user) == Some((name, date, time, id))
      && s4[user].records[1..] == EntryOf(store, user).records
  {
    NamePushes(store, user, name);
    var s1 := JsonEditor(store, user, NameKey, name).value;
    FieldWriteKeepsRest(s1, user, DateKey, date);
    var s2 := JsonEditor(s1, user, DateKey, date).value;
    FieldWriteKeepsRest(s2, user, TimeKey, time);
    var s3 := JsonEditor(s2, user, TimeKey, time).value;
    FieldWriteKeepsRest(s3, user, IdKey, id);
  }
}

=== FILE: eco_flow.dfy ===
/** The conversation that sets up daily tips: /vibrat, a button that opens
    the timezone menu, a timezone, then a preset or typed time, which is
    saved to the users table and scheduled on the job queue. */
module EcoFlow {
  import opened Wrappers
  import opened Text
  import opened Codec
  import opened Tips
  import opened Updates

  /** Where the user is in the conversation; Outside is both "never
      started" and `ConversationHandler.END`. */
  datatype Phase = Outside | SelectingTimezone | SelectingTime

  /** The conversation state, the user's `user_data` timezone (it outlives
      the conversation), and the stores the handlers write. */
  datatype EcoState = EcoState(phase: Phase, chosenZone: Option<string>, db: ScheduleDb, jobs: JobQueue)

  /** What the bot answers. HandlerRaised is an exception escaping a
      handler: nothing is sent and the conversation stays where it was. */
  datatype Reply =
    | NoReply
    | OfferZoneMenu(keyboard: Keyboard)
    | ZoneMenu(keyboard: Keyboard)
    | TimeMenu(keyboard: Keyboard)
    | AskCustomTime
    | Confirmed(hour: int, minute: int, zone: string)
    | BadTime
    | BadFormat
    | HandlerRaised

  // ---------------------------------------------------------------------
  // Keyboards
  // ---------------------------------------------------------------------

  const SetTimezoneToken := "set_timezone"
  const CustomToken := "custom"
  const ZonePrefix := "tz_"

  /** The menu of `set_timezone`: a caption and a zone name per row. */
  const ZoneChoices: seq<(string, string)> := [
    ("Москва (UTC+3)", "Europe/Moscow"),
    ("Лондон (UTC+1)", "Europe/London"),
    ("Нью-Йорк (UTC-4)", "America/New_York"),
    ("Токио (UTC+9)", "Asia/Tokyo")
  ]

  function OfferKeyboard(): Keyboard {
    [[Button("Выбрать часовой пояс", SetTimezoneToken)]]
  }

  /** One row per zone: a single button under the zone's caption, whose
      data the `^tz_` pattern routes to the timezone handler and from which
      the zone is recovered whole after the prefix. */
  function ZoneKeyboard(): (kb: Keyboard)
    ensures |kb| == |ZoneChoices|
    ensures forall i :: 0 <= i < |kb| ==>
      && |kb[i]| == 1 && kb[i][0].text == ZoneChoices[i].0
      && IsZoneCallback(kb[i][0].token) && ZoneFromCallbackFixed(kb[i][0].token) == ZoneChoices[i].1
  {
    assert forall i | 0 <= i < |ZoneChoices| :: (ZonePrefix + ZoneChoices[i].1)[3..] == ZoneChoices[i].1;
    seq(|ZoneChoices|, i requires 0 <= i < |ZoneChoices| => [Button(ZoneChoices[i].0, ZonePrefix + ZoneChoices[i].1)])
  }

  /** Three preset times and a button asking for a typed one. */
  function TimeKeyboard(): Keyboard {
    [[Button("08:00", "8_0"), Button("12:00", "12_0"), Button("18:00", "18_0")],
     [Button("Другое время", CustomToken)]]
  }

  // ---------------------------------------------------------------------
  // Reading the user's input
  // ---------------------------------------------------------------------

  /** Callback data the `^tz_` pattern routes to the timezone handler. */
  predicate IsZoneCallback(data: string) {
    |data| >= 3 && data[..3] == ZonePrefix
  }

  /** The zone as `handle_timezone_selection` reads it: the second field
      of the data split on '_', which stops at an underscore in the zone. */
  function ZoneFromCallback(data: string): (zone: string)
    requires IsZoneCallback(data)
    ensures zone == Split(data[3..], '_')[0]
  {
    assert data == "tz" + ['_'] + data[3..];
    SplitHead("tz", '_', data[3..]);
    Split(data, '_')[1]
  }

  /** The zone as the menu meant it: everything after `tz_`. */
  function ZoneFromCallbackFixed(data: string): (zone: string)
    requires IsZoneCallback(data)
    ensures ZonePrefix + zone == data
  {
    data[3..]
  }

  /** `map(int, text.split(sep))` unpacked into two names: exactly two
      fields, each an integer `int()` accepts; None where it raises ValueError. */
  function ParseTimePair(text: string, sep: char): (r: Option<(int, int)>)
    ensures r.Some? <==>
      var parts := Split(text, sep);
      |parts| == 2 && ParseInt(parts[0]).Some? && ParseInt(parts[1]).Some?
  {
    var parts := Split(text, sep);
    if |parts| != 2 then None
    else match (ParseInt(parts[0]), ParseInt(parts[1]))
      case (Some(h), Some(m)) => Some((h, m))
      case _ => None
  }

  // ---------------------------------------------------------------------
  // The step
  // ---------------------------------------------------------------------

  /** Saving and scheduling a chosen time ends the conversation. The zone
      is the one picked earlier, or Europe/Moscow if none was: it is
      confirmed and stored as the user's row, and the user's one daily job
      runs in it, or in Europe/Moscow when the timezone database does not
      know it. Other users' rows and jobs are kept. */
  function Commit(s: EcoState, user: int, hour: int, minute: int, zones: set<string>): (r: (EcoState, Reply))
    ensures var zone := s.chosenZone.GetOr(DefaultZone);
      && r.0.phase == Outside && r.0.chosenZone == s.chosenZone
      && r.1 == Confirmed(hour, minute, zone)
      && r.0.db.Keys == s.db.Keys + {user}
      && r.0.db[user] == Row(hour, minute, zone)
      && (forall u :: u in s.db && u != user ==> r.0.db[u] == s.db[u])
      && Named(r.0.jobs, JobName(user))
         == (if EffectiveZone(zone, zones).Some? && ValidTime(hour, minute)
             then [Job(JobName(user), hour, minute, EffectiveZone(zone, zones).value, user)]
             else [])
      && (forall other :: other != JobName(user) ==> Named(r.0.jobs, other) == Named(s.jobs, other))
  {
    var zone := s.chosenZone.GetOr(DefaultZone);
    (EcoState(Outside, s.chosenZone,
              SaveUserTime(s.db, user, hour, minute, zone),
              ScheduleDailyTip(s.jobs, user, hour, minute, zone, zones)),
     Confirmed(hour, minute, zone))
  }

  /** How a timezone button's data is read: as `handle_timezone_selection`
      is written, or as the menu meant it. */
  datatype ZoneReading = AsWritten | Corrected

  function ReadZone(reading: ZoneReading, data: string): (zone: string)
    requires IsZoneCallback(data)
  {
    match reading
    case AsWritten => ZoneFromCallback(data)
    case Corrected => ZoneFromCallbackFixed(data)
  }

  /** Only a confirmation touches the users table and the job queue, and
      a confirmation ends the conversation with the user's row saved. */
  predicate WritesOnlyOnConfirm(s: EcoState, user: int, r: (EcoState, Reply)) {
    && (!r.1.Confirmed? ==> r.0.db == s.db && r.0.jobs == s.jobs)
    && (r.1.Confirmed? ==>
          r.0.phase == Outside && user in r.0.db && r.0.db[user] == Row(r.1.hour, r.1.minute, r.1.zone))
  }

  /** One update handled by the conversation of `user`, with timezone
      buttons read as given; zones is the set of names the timezone
      database knows. */
  function StepReading(reading: ZoneReading, s: EcoState, user: int, ev: Event, zones: set<string>): (r: (EcoState, Reply))
    ensures WritesOnlyOnConfirm(s, user, r)
  {
    match s.phase
    case Outside =>
      if ev == Command("vibrat") then (s.(phase := SelectingTimezone), OfferZoneMenu(OfferKeyboard()))
      else (s, NoReply)
    case SelectingTimezone =>
      if ev.Callback? then (s.(phase := SelectingTime), ZoneMenu(ZoneKeyboard()))
      else (s, NoReply)
    case SelectingTime =>
      match ev
      case Command(_) => (s, NoReply)
      case Callback(data) =>
        if IsZoneCallback(data) then (s.(chosenZone := Some(ReadZone(reading, data))), TimeMenu(TimeKeyboard()))
        else if data == CustomToken then (s, AskCustomTime)
        else
          (match ParseTimePair(data, '_')
           case None => (s, HandlerRaised)
           case Some((h, m)) => Commit(s, user, h, m, zones))
      case Message(text) =>
        match ParseTimePair(text, ':')
        case None => (s, BadFormat)
        case Some((h, m)) => if ValidTime(h, m) then Commit(s, user, h, m, zones) else (s, BadTime)
  }

  /** The conversation as the handlers are written. */
  function EcoStep(s: EcoState, user: int, ev: Event, zones: set<string>): (r: (EcoState, Reply))
    ensures WritesOnlyOnConfirm(s, user, r)
  {
    StepReading(AsWritten, s, user, ev, zones)
  }

  /** The conversation with timezone buttons read whole. */
  function EcoStepFixed(s: EcoState, user: int, ev: Event, zones: set<string>): (r: (EcoState, Reply))
    ensures WritesOnlyOnConfirm(s, user, r)
  {
    StepReading(Corrected, s, user, ev, zones)
  }

  // ---------------------------------------------------------------------
  // Properties
  // ---------------------------------------------------------------------

  /** The phases are visited in order: /vibrat opens the menu button, any
      button press then shows the zones. */
  lemma Opening(s: EcoState, user: int, data: string, zones: set<string>)
    requires s.phase == Outside
    ensures var (s1, r1) := EcoStep(s, user, Command("vibrat"), zones);
      && s1 == s.(phase := SelectingTimezone) && r1 == OfferZoneMenu(OfferKeyboard())
      && EcoStep(s1, user, Callback(data), zones) == (s.(phase := SelectingTime), ZoneMenu(ZoneKeyboard()))
  {
  }

  /** A typed time ends the conversation exactly when it is two integers
      around ':' within 0..23 and 0..59; every other text keeps the
      conversation and the stores as they were. */
  lemma CustomTimeAcceptedIff(s: EcoState, user: int, text: string, zones: set<string>)
    requires s.phase == SelectingTime
    ensures var (s1, _) := EcoStep(s, user, Message(text), zones);
      var p := ParseTimePair(text, ':');
      && (s1.phase == Outside <==> p.Some? && ValidTime(p.value.0, p.value.1))
      && (s1.phase != Outside ==> s1 == s)
  {
  }

  /** An accepted time is saved for the user and scheduled as the user's
      only job, in the chosen zone or its fallback; other users' rows and
      jobs stay as they were. */
  lemma AcceptedTimeCommits(s: EcoState, user: int, text: string, zones: set<string>)
    requires s.phase == SelectingTime
    requires ParseTimePair(text, ':').Some?
    requires ValidTime(ParseTimePair(text, ':').value.0, ParseTimePair(text, ':').value.1)
    ensures var (h, m) := ParseTimePair(text, ':').value;
      var zone := s.chosenZone.GetOr(DefaultZone);
      var (s1, r1) := EcoStep(s, user, Message(text), zones);
      && r1 == Confirmed(h, m, zone)
      && s1.db[user] == Row(h, m, zone)
      && (forall u :: u in s.db && u != user ==> s1.db[u] == s.db[u])
      && (EffectiveZone(zone, zones).Some? ==>
            Named(s1.jobs, JobName(user)) == [Job(JobName(user), h, m, EffectiveZone(zone, zones).value, user)])
      && (forall other :: other != JobName(user) ==> Named(s1.jobs, other) == Named(s.jobs, other))
  {
  }

  /** Splitting two separator-free fields around the separator gives them back. */
  lemma SplitPair(a: string, b: string, sep: char)
    requires sep !in a && sep !in b
    ensures Split(a + [sep] + b, sep) == [a, b]
  {
    SplitHead(a, sep, b);
    SplitWhole(b, sep);
  }

  /** The format the bot asks for, `ЧЧ:ММ` with two-digit fields such as
      09:30, reads back as the hour and minute. */
  lemma TwoDigitTimeParses(h: nat, m: nat)
    ensures ParseTimePair(ZeroPad(h, 2) + ":" + ZeroPad(m, 2), ':') == Some((h, m))
  {
    var a := ZeroPad(h, 2);
    var b := ZeroPad(m, 2);
    SplitPair(a, b, ':');
    ParseIntZeroPad(h, 2);
    ParseIntZeroPad(m, 2);
  }

  /** `str(h) + sep + str(m)` reads back as (h, m), for any integers. */
  lemma DecimalPairParses(h: int, m: int, sep: char)
    requires sep != '-' && !IsDigit(sep)
    ensures ParseTimePair(IntToString(h) + [sep] + IntToString(m), sep) == Some((h, m))
  {
    SplitPair(IntToString(h), IntToString(m), sep);
    ParseIntToString(h);
    ParseIntToString(m);
  }

  /** The preset buttons schedule 08:00, 12:00 and 18:00. */
  lemma PresetTimesCommit(s: EcoState, user: int, j: nat, zones: set<string>)
    requires s.phase == SelectingTime && j < 3
    ensures EcoStep(s, user, Callback(TimeKeyboard()[0][j].token), zones) == Commit(s, user, PresetHours[j], 0, zones)
  {
    PresetParses(j);
  }

  /** A preset token is neither a zone nor "custom", and parses as its hour
      and minute 0. */
  lemma PresetParses(j: nat)
    requires j < 3
    ensures var token := TimeKeyboard()[0][j].token;
      && !IsZoneCallback(token) && token != CustomToken
      && ParseTimePair(token, '_') == Some((PresetHours[j], 0))
  {
    var token := TimeKeyboard()[0][j].token;
    var h := PresetHours[j];
    assert token[0] != 't' && token != CustomToken;
    PresetToken(j);
    DecimalPairParses(h, 0, '_');
    assert token == IntToString(h) + ['_'] + IntToString(0);
  }

  const PresetHours: seq<int> := [8, 12, 18]

  /** The preset tokens are `str(hour) + "_" + str(0)`. */
  lemma PresetToken(j: nat)
    requires j < 3
    ensures TimeKeyboard()[0][j].token == IntToString(PresetHours[j]) + "_" + IntToString(0)
  {
    if j == 0 {
      DecimalToken("8_0", 8);
    } else if j == 1 {
      DecimalToken("12_0", 12);
    } else {
      DecimalToken("18_0", 18);
    }
  }

  /** A preset token spelled out: the hour's digits, '_', then 0. */
  lemma DecimalToken(token: string, h: nat)
    requires (token, h) in {("8_0", 8), ("12_0", 12), ("18_0", 18)}
    ensures token == IntToString(h) + "_" + IntToString(0)
  {
    assert IntToString(0) == "0";
    if h == 8 {
      assert IntToString(8) == "8";
    } else {
      assert Digits(1) == "1";
      assert Digits(h) == Digits(1) + [DigitChar(h - 10)];
    }
  }

  /** The zone read from a menu button is the chosen zone cut at its first
      underscore: it is the chosen zone exactly when that has no underscore. */
  lemma ZoneFromCallbackCorrectIff(zone: string)
    ensures IsZoneCallback(ZonePrefix + zone)
    ensures ZoneFromCallback(ZonePrefix + zone) == zone <==> '_' !in zone
  {
    var data := ZonePrefix + zone;
    assert data[3..] == zone;
    var parts := Split(zone, '_');
    if '_' !in zone {
      SplitWhole(zone, '_');
    } else {
      assert '_' !in parts[0];
    }
  }

  /** America/New_York is read as America/New. */
  lemma NewYorkTruncated()
    ensures ZoneFromCallback(ZonePrefix + "America/New_York") == "America/New"
  {
    var zone := "America/New_York";
    assert zone == "America/New" + ['_'] + "York";
    SplitHead("America/New", '_', "York");
    assert (ZonePrefix + zone)[3..] == zone;
  }

  /** The corrected reading gives back every menu zone. */
  lemma ZoneFromCallbackFixedRoundTrip(zone: string)
    ensures IsZoneCallback(ZonePrefix + zone)
    ensures ZoneFromCallbackFixed(ZonePrefix + zone) == zone
  {
    assert (ZonePrefix + zone)[3..] == zone;
  }

  /** With the corrected reading, every button of the zone menu yields its zone. */
  lemma FixedZoneMenuRoundTrip(i: nat)
    requires i < |ZoneKeyboard()|
    ensures IsZoneCallback(ZoneKeyboard()[i][0].token)
    ensures ZoneFromCallbackFixed(ZoneKeyboard()[i][0].token) == ZoneChoices[i].1
  {
    ZoneFromCallbackFixedRoundTrip(ZoneChoices[i].1);
  }

  /** The two readings part ways exactly on a timezone button whose zone
      holds an underscore; every other update is handled the same. */
  lemma StepsAgreeIff(s: EcoState, user: int, ev: Event, zones: set<string>)
    ensures EcoStep(s, user, ev, zones) == EcoStepFixed(s, user, ev, zones)
        <==> !(s.phase == SelectingTime && ev.Callback? && IsZoneCallback(ev.data) && '_' in ev.data[3..])
  {
    if s.phase == SelectingTime && ev.Callback? && IsZoneCallback(ev.data) {
      var data := ev.data;
      assert ZonePrefix + data[3..] == data;
      ZoneFromCallbackCorrectIff(data[3..]);
      if '_' in data[3..] {
        assert EcoStep(s, user, ev, zones).0.chosenZone != EcoStepFixed(s, user, ev, zones).0.chosenZone;
      }
    }
  }

  /** As written, the New York button chooses "America/New". */
  lemma NewYorkPicked(s: EcoState, user: int, zones: set<string>)
    requires s.phase == SelectingTime
    ensures EcoStep(s, user, Callback(ZoneKeyboard()[2][0].token), zones)
         == (s.(chosenZone := Some("America/New")), TimeMenu(TimeKeyboard()))
  {
    var data := ZoneKeyboard()[2][0].token;
    assert data == ZonePrefix + ZoneChoices[2].1 by {
      assert ZonePrefix + ZoneFromCallbackFixed(data) == data;
    }
    NewYorkTruncated();
    assert ReadZone(AsWritten, data) == "America/New";
  }

  /** With the zone read whole, the New York button chooses
      "America/New_York". */
  lemma NewYorkPickedFixed(s: EcoState, user: int, zones: set<string>)
    requires s.phase == SelectingTime
    ensures EcoStepFixed(s, user, Callback(ZoneKeyboard()[2][0].token), zones)
         == (s.(chosenZone := Some("America/New_York")), TimeMenu(TimeKeyboard()))
  {
    FixedZoneMenuRoundTrip(2);
  }

  /** As written, the New York button and then the 08:00 preset store the
      truncated zone, schedule the job in Europe/Moscow when that name is
      unknown, and leave a row whose tip job raises. */
  lemma NewYorkQuirk(s: EcoState, user: int, zones: set<string>, day: int)
    requires s.phase == SelectingTime
    requires "America/New" !in zones && DefaultZone in zones
    ensures var s1 := EcoStep(s, user, Callback(ZoneKeyboard()[2][0].token), zones).0;
      var (s2, r2) := EcoStep(s1, user, Callback(TimeKeyboard()[0][0].token), zones);
      && r2 == Confirmed(8, 0, "America/New")
      && user in s2.db && s2.db[user] == Row(8, 0, "America/New")
      && Named(s2.jobs, JobName(user)) == [Job(JobName(user), 8, 0, DefaultZone, user)]
      && FireTip(s2.db, user, zones, day) == TipRaises
  {
    var ny := Callback(ZoneKeyboard()[2][0].token);
    var eight := Callback(TimeKeyboard()[0][0].token);
    NewYorkPicked(s, user, zones);
    var s1 := s.(chosenZone := Some("America/New"));
    assert EcoStep(s, user, ny, zones).0 == s1;
    PresetTimesCommit(s1, user, 0, zones);
    assert EcoStep(s1, user, eight, zones) == Commit(s1, user, 8, 0, zones);
    TruncatedCommit(s1, user, zones, day);
  }

  /** Committing 08:00 with the truncated zone chosen stores it, schedules
      the job in Europe/Moscow when that name is unknown, and leaves a row
      whose tip job raises. */
  lemma TruncatedCommit(s: EcoState, user: int, zones: set<string>, day: int)
    requires s.chosenZone == Some("America/New")
    requires "America/New" !in zones && DefaultZone in zones
    ensures var (s2, r2) := Commit(s, user, 8, 0, zones);
      && r2 == Confirmed(8, 0, "America/New")
      && user in s2.db && s2.db[user] == Row(8, 0, "America/New")
      && Named(s2.jobs, JobName(user)) == [Job(JobName(user), 8, 0, DefaultZone, user)]
      && FireTip(s2.db, user, zones, day) == TipRaises
  {
  }

  /** With the zone read whole, New York then 08:00 stores and schedules
      "America/New_York", and the daily tip is sent. */
  lemma NewYorkKept(s: EcoState, user: int, zones: set<string>, day: int)
    requires s.phase == SelectingTime && "America/New_York" in zones
    ensures var s1 := EcoStepFixed(s, user, Callback(ZoneKeyboard()[2][0].token), zones).0;
      var (s2, r2) := EcoStepFixed(s1, user, Callback(TimeKeyboard()[0][0].token), zones);
      && r2 == Confirmed(8, 0, "America/New_York")
      && user in s2.db && s2.db[user] == Row(8, 0, "America/New_York")
      && Named(s2.jobs, JobName(user)) == [Job(JobName(user), 8, 0, "America/New_York", user)]
      && FireTip(s2.db, user, zones, day).SendTip?
  {
    NewYorkPickedFixed(s, user, zones);
    var s1 := s.(chosenZone := Some("America/New_York"));
    PresetParses(0);
    StepsAgreeIff(s1, user, Callback(TimeKeyboard()[0][0].token), zones);
    PresetTimesCommit(s1, user, 0, zones);
  }
}

=== FILE: gregorian.dfy ===
/** The proleptic Gregorian calendar of Python's `datetime` and `calendar`
    modules: leap years, month lengths, ordinals and weekdays, and the
    one-day steps that `timedelta(days=…)` arithmetic is made of. */
module Gregorian {
  import opened Wrappers

  /** `datetime.MINYEAR` and `datetime.MAXYEAR`. */
  const MinYear: int := 1
  const MaxYear: int := 9999

  /** A calendar date; `ValidDate` says when `datetime(year, month, day)`
      accepts it. */
  datatype Date = Date(year: int, month: int, day: int)

  predicate IsLeap(y: int) {
    y % 4 == 0 && (y % 100 != 0 || y % 400 == 0)
  }

  predicate ValidMonth(m: int) { 1 <= m <= 12 }

  predicate ValidYearMonth(y: int, m: int) {
    MinYear <= y <= MaxYear && ValidMonth(m)
  }

  /** The number of days in month m of year y. */
  function DaysIn(y: int, m: int): (n: int)
    requires ValidMonth(m)
    ensures 28 <= n <= 31
    ensures m == 2 ==> (n == 29 <==> IsLeap(y))
  {
    if m == 2 then (if IsLeap(y) then 29 else 28)
    else if m == 4 || m == 6 || m == 9 || m == 11 then 30
    else 31
  }

  predicate ValidDate(d: Date) {
    ValidYearMonth(d.year, d.month) && 1 <= d.day <= DaysIn(d.year, d.month)
  }

  function DaysInYear(y: int): int {
    if IsLeap(y) then 366 else 365
  }

  /** Days in the months of year y before month m, from a table of
      cumulative month lengths of a common year. */
  function DaysBeforeMonth(y: int, m: int): int
    requires ValidMonth(m)
  {
    [0, 31, 59, 90, 120, 151, 181, 212, 243, 273, 304, 334][m - 1]
      + (if m > 2 && IsLeap(y) then 1 else 0)
  }

  /** Days in the years before year y, counted from 1 January of year 1,
      year by year. */
  function DaysBeforeYear(y: int): int
    requires y >= 1
    decreases y
  {
    if y == 1 then 0 else DaysBeforeYear(y - 1) + DaysInYear(y - 1)
  }

  /** `_days_before_year(y)` of `datetime`: the same count in closed form,
      by the leap rule of the Gregorian calendar. */
  function DaysBeforeYearClosed(y: int): int
    requires y >= 1
  {
    var p := y - 1;
    p * 365 + p / 4 - p / 100 + p / 400
  }

  /** `date.toordinal()`: 1 January of year 1 is day 1. */
  function Ordinal(d: Date): int
    requires ValidDate(d)
  {
    DaysBeforeYear(d.year) + DaysBeforeMonth(d.year, d.month) + d.day
  }

  /** `date.weekday()`: Monday is 0 and Sunday is 6. */
  function Weekday(d: Date): (w: int)
    requires ValidDate(d)
    ensures 0 <= w < 7
  {
    (Ordinal(d) + 6) % 7
  }

  // ---------------------------------------------------------------------
  // One-day steps
  // ---------------------------------------------------------------------

  /** `d + timedelta(days=1)`; None where `datetime` raises OverflowError. */
  function NextDay(d: Date): (r: Option<Date>)
    requires ValidDate(d)
    ensures r.Some? ==> ValidDate(r.value)
    ensures r.None? <==> d == Date(MaxYear, 12, 31)
  {
    if d.day < DaysIn(d.year, d.month) then Some(d.(day := d.day + 1))
    else if d.month < 12 then Some(Date(d.year, d.month + 1, 1))
    else if d.year < MaxYear then Some(Date(d.year + 1, 1, 1))
    else None
  }

  /** `d - timedelta(days=1)`; None where `datetime` raises OverflowError. */
  function PrevDay(d: Date): (r: Option<Date>)
    requires ValidDate(d)
    ensures r.Some? ==> ValidDate(r.value)
    ensures r.None? <==> d == Date(MinYear, 1, 1)
  {
    if d.day > 1 then Some(d.(day := d.day - 1))
    else if d.month > 1 then Some(Date(d.year, d.month - 1, DaysIn(d.year, d.month - 1)))
    else if d.year > MinYear then Some(Date(d.year - 1, 12, 31))
    else None
  }

  /** `d + timedelta(days=n)` for n >= 0, one day at a time. */
  function AddDays(d: Date, n: nat): (r: Option<Date>)
    requires ValidDate(d)
    ensures r.Some? ==> ValidDate(r.value)
    decreases n
  {
    if n == 0 then Some(d)
    else match NextDay(d)
      case None => None
      case Some(e) => AddDays(e, n - 1)
  }

  /** The closed form grows by the length of each year: the days before
      year y + 1 are those before year y plus the length of year y. */
  lemma ClosedFormStep(y: int)
    requires y >= 1
    ensures DaysBeforeYearClosed(y + 1) == DaysBeforeYearClosed(y) + DaysInYear(y)
  {
    var p := y - 1;
    DivStep(p, 4);
    DivStep(p, 100);
    DivStep(p, 400);
    MultipleOfMultiple(y, 100, 4);
    MultipleOfMultiple(y, 400, 100);
  }

  /** The closed form `datetime` uses counts the same days as adding the
      years up one by one. */
  lemma {:induction false} ClosedFormCounts(y: int)
    requires y >= 1
    ensures DaysBeforeYearClosed(y) == DaysBeforeYear(y)
    decreases y
  {
    if y > 1 {
      ClosedFormCounts(y - 1);
      ClosedFormStep(y - 1);
    }
  }

  /** Counting multiples of q: one more is passed exactly at a multiple. */
  lemma DivStep(p: int, q: int)
    requires q == 4 || q == 100 || q == 400
    ensures (p + 1) / q == p / q + (if (p + 1) % q == 0 then 1 else 0)
  {
  }

  /** A multiple of 100 is a multiple of 4, and one of 400 a multiple of 100. */
  lemma MultipleOfMultiple(y: int, big: int, small: int)
    requires (big, small) == (100, 4) || (big, small) == (400, 100)
    ensures y % big == 0 ==> y % small == 0
  {
    if y % big == 0 {
      var k := y / big;
      assert y == big * k;
      assert y == small * ((big / small) * k);
    }
  }

  /** A step forward is one day later on the ordinal line. */
  lemma NextDayOrdinal(d: Date)
    requires ValidDate(d) && NextDay(d).Some?
    ensures Ordinal(NextDay(d).value) == Ordinal(d) + 1
  {
    if d.day == DaysIn(d.year, d.month) {
      if d.month < 12 {
        MonthStep(d.year, d.month);
      } else {
        YearEnd(d.year);
      }
    }
  }

  /** A step back is one day earlier on the ordinal line. */
  lemma PrevDayOrdinal(d: Date)
    requires ValidDate(d) && PrevDay(d).Some?
    ensures Ordinal(PrevDay(d).value) == Ordinal(d) - 1
  {
    if d.day == 1 {
      if d.month > 1 {
        MonthStep(d.year, d.month - 1);
      } else {
        YearEnd(d.year - 1);
      }
    }
  }

  /** The months before m + 1 are those before m and m itself. */
  lemma MonthStep(y: int, m: int)
    requires 1 <= m < 12
    ensures DaysBeforeMonth(y, m + 1) == DaysBeforeMonth(y, m) + DaysIn(y, m)
  {
  }

  /** December closes the year: the months before it and its 31 days make
      the year's length, and the next year starts after them. */
  lemma YearEnd(y: int)
    requires y >= 1
    ensures DaysBeforeMonth(y, 12) + 31 == DaysInYear(y)
    ensures DaysBeforeYear(y + 1) == DaysBeforeYear(y) + DaysInYear(y)
  {
  }

  /** Stepping forward then back returns to the same date. */
  lemma PrevUndoesNext(d: Date)
    requires ValidDate(d) && NextDay(d).Some?
    ensures PrevDay(NextDay(d).value) == Some(d)
  {
  }

  /** Stepping back then forward returns to the same date. */
  lemma NextUndoesPrev(d: Date)
    requires ValidDate(d) && PrevDay(d).Some?
    ensures NextDay(PrevDay(d).value) == Some(d)
  {
  }

  /** Adding n days moves n days along the ordinal line. */
  lemma {:induction false} AddDaysOrdinal(d: Date, n: nat)
    requires ValidDate(d) && AddDays(d, n).Some?
    ensures Ordinal(AddDays(d, n).value) == Ordinal(d) + n
    decreases n
  {
    if n > 0 {
      var e := NextDay(d).value;
      NextDayOrdinal(d);
      AddDaysOrdinal(e, n - 1);
    }
  }

  /** Consecutive days have consecutive weekdays. */
  lemma NextDayWeekday(d: Date)
    requires ValidDate(d) && NextDay(d).Some?
    ensures Weekday(NextDay(d).value) == (Weekday(d) + 1) % 7
  {
    NextDayOrdinal(d);
    WeekShift(Ordinal(d) + 6, 1);
  }

  /** Shifting a count by k shifts its weekday by k. */
  lemma WeekShift(a: int, k: int)
    ensures (a + k) % 7 == (a % 7 + k) % 7
  {
  }

  /** Within a month, the weekday of day k is that of the 1st shifted by k - 1. */
  lemma WeekdayInMonth(y: int, m: int, k: int)
    requires ValidDate(Date(y, m, k))
    ensures ValidDate(Date(y, m, 1))
    ensures Weekday(Date(y, m, k)) == (Weekday(Date(y, m, 1)) + k - 1) % 7
  {
    assert Ordinal(Date(y, m, k)) == Ordinal(Date(y, m, 1)) + k - 1;
    WeekShift(Ordinal(Date(y, m, 1)) + 6, k - 1);
  }

  // ---------------------------------------------------------------------
  // Month navigation
  // ---------------------------------------------------------------------

  /** The month after (y, m). */
  function NextMonth(y: int, m: int): (r: (int, int))
    requires ValidMonth(m)
    ensures ValidMonth(r.1)
    ensures r.0 * 12 + r.1 == y * 12 + m + 1
  {
    if m == 12 then (y + 1, 1) else (y, m + 1)
  }

  /** The month before (y, m). */
  function PrevMonth(y: int, m: int): (r: (int, int))
    requires ValidMonth(m)
    ensures ValidMonth(r.1)
    ensures r.0 * 12 + r.1 == y * 12 + m - 1
  {
    if m == 1 then (y - 1, 12) else (y, m - 1)
  }

  lemma PrevUndoesNextMonth(y: int, m: int)
    requires ValidMonth(m)
    ensures PrevMonth(NextMonth(y, m).0, NextMonth(y, m).1) == (y, m)
  {
  }

  lemma NextUndoesPrevMonth(y: int, m: int)
    requires ValidMonth(m)
    ensures NextMonth(PrevMonth(y, m).0, PrevMonth(y, m).1) == (y, m)
  {
  }

  /** The day before the 1st is the last day of the previous month, and
      only the 1st of January of year 1 has none. */
  lemma DayBeforeFirst(y: int, m: int)
    requires ValidYearMonth(y, m)
    ensures ValidDate(Date(y, m, 1))
    ensures PrevDay(Date(y, m, 1)).None? <==> (y, m) == (MinYear, 1)
    ensures PrevDay(Date(y, m, 1)).Some? ==>
      var (py, pm) := PrevMonth(y, m);
      PrevDay(Date(y, m, 1)) == Some(Date(py, pm, DaysIn(py, pm)))
  {
  }

  /** Four days after the 28th lie in the next month (on its 1st to 4th),
      and only from December of the last year do they overflow. */
  lemma FourDaysAfter28th(y: int, m: int)
    requires ValidYearMonth(y, m)
    ensures ValidDate(Date(y, m, 28))
    ensures AddDays(Date(y, m, 28), 4).None? <==> (y, m) == (MaxYear, 12)
    ensures AddDays(Date(y, m, 28), 4).Some? ==>
      var e := AddDays(Date(y, m, 28), 4).value;
      (e.year, e.month) == NextMonth(y, m) && 1 <= e.day <= 4
  {
    var d := Date(y, m, 28);
    var n1 := NextDay(d);
    if n1.Some? {
      var n2 := NextDay(n1.value);
      if n2.Some? {
        var n3 := NextDay(n2.value);
        if n3.Some? {
          var n4 := NextDay(n3.value);
          assert AddDays(n3.value, 1) == n4;
        }
      }
    }
  }
}

=== FILE: reminder_flow.dfy ===
/** The conversation that records a reminder: /reminder, a name, a date
    from the month picker, a time from the clock picker, optional extra
    information, then the summary. Every step writes into the draft at the
    head of the user's list; /cancel drops it. */
module ReminderFlow {
  import opened Wrappers
  import opened Text
  import opened Codec
  import opened Gregorian
  import opened Drafts
  import opened Updates
  import Calendar
  import Clock

  /** NAME, DATE_Q, TIME_Q, INFO and OPT, with Idle for "not in the
      conversation" (`ConversationHandler.END`). */
  datatype Phase = Idle | AwaitName | AwaitDate | AwaitTime | AwaitInfoChoice | AwaitInfoText

  datatype ReminderState = ReminderState(phase: Phase, store: Store)

  /** The current moment, the reminder id `random.randint(0, 100000)`
      would draw, and whether Telegram accepts the Markdown reply that
      quotes the user's reminder name: a name with an unpaired `_`, `*` or
      backquote makes Telegram refuse it. */
  datatype Env = Env(today: Date, hour: int, minute: int, draftId: int, nameReplyAccepted: bool)

  predicate ValidEnv(env: Env) {
    && ValidDate(env.today)
    && 0 <= env.hour < 24 && 0 <= env.minute < 60
    && 0 <= env.draftId <= 100000
  }

  /** What the bot shows. Pickers are given by what they display: the
      month of a calendar, the triple of a clock. Raised is an exception
      escaping a handler: nothing more is sent and the conversation stays
      in its phase, keeping any store write made before the exception. */
  datatype Reply =
    | NoReply
    | AskName
    | ShowCalendar(year: int, month: int)
    | DatePicked(dateText: string, clock: Clock.Face)
    | ShowClock(face: Clock.Face)
    | TimePicked(timeText: string)
    | AskInfoText
    | Saved(name: Value, date: Value, time: Value)
    | SaveFailed
    | Cancelled
    | Raised

  const YesAnswer := "Да"

  // ---------------------------------------------------------------------
  // Output formats
  // ---------------------------------------------------------------------

  /** `date.strftime("%d/%m/%Y")`, the year written with four digits. */
  function DateText(d: Date): string
    requires ValidDate(d)
  {
    ZeroPad(d.day, 2) + "/" + ZeroPad(d.month, 2) + "/" + ZeroPad(d.year, 4)
  }

  /** `f"{hour}:{minute:02d} {period}"`. */
  function TimeText(f: Clock.Face): string {
    IntToString(f.hour) + ":" + Pad2(f.minute) + " " + f.period
  }

  /** Splitting three separator-free fields around two separators gives them back. */
  lemma SplitTriple(a: string, b: string, c: string, sep: char)
    requires sep !in a && sep !in b && sep !in c
    ensures Split(a + [sep] + b + [sep] + c, sep) == [a, b, c]
  {
    var rest := b + [sep] + c;
    SplitHead(b, sep, c);
    SplitWhole(c, sep);
    assert Split(rest, sep) == [b, c];
    SplitHead(a, sep, rest);
    assert a + [sep] + b + [sep] + c == a + [sep] + rest;
  }

  /** The date text splits on '/' into day, month and year fields that
      `int()` reads back. */
  lemma DateTextReadsBack(d: Date)
    requires ValidDate(d)
    ensures var parts := Split(DateText(d), '/');
      && |parts| == 3
      && ParseInt(parts[0]) == Some(d.day)
      && ParseInt(parts[1]) == Some(d.month)
      && ParseInt(parts[2]) == Some(d.year)
  {
    SplitTriple(ZeroPad(d.day, 2), ZeroPad(d.month, 2), ZeroPad(d.year, 4), '/');
    ParseIntZeroPad(d.day, 2);
    ParseIntZeroPad(d.month, 2);
    ParseIntZeroPad(d.year, 4);
  }

  /** The time text is the hour, ':', then the two-digit minute and the
      period around a space; hour and minute read back with `int()`. */
  lemma TimeTextReadsBack(f: Clock.Face)
    requires ':' !in f.period
    ensures var parts := Split(TimeText(f), ':');
      && parts == [IntToString(f.hour), Pad2(f.minute) + " " + f.period]
      && ParseInt(parts[0]) == Some(f.hour)
      && Split(parts[1], ' ')[0] == Pad2(f.minute)
      && ParseInt(Pad2(f.minute)) == Some(f.minute)
  {
    var h := IntToString(f.hour);
    var rest := Pad2(f.minute) + " " + f.period;
    PadHasNoSeparators(f.minute);
    assert ':' !in rest;
    assert TimeText(f) == h + [':'] + rest;
    SplitHead(h, ':', rest);
    SplitWhole(rest, ':');
    MinuteField(f.minute, f.period);
    ParseIntToString(f.hour);
  }

  /** The formatted minute holds neither ':' nor ' '. */
  lemma PadHasNoSeparators(n: int)
    ensures ':' !in Pad2(n) && ' ' !in Pad2(n)
  {
    if n >= 0 {
      assert AllDigits(ZeroPad(n, 2));
    } else {
      assert IntToString(n) == ['-'] + Digits(-n);
    }
  }

  /** The field after ':' starts with the formatted minute, which reads back. */
  lemma MinuteField(n: int, period: string)
    ensures Split(Pad2(n) + " " + period, ' ')[0] == Pad2(n)
    ensures ParseInt(Pad2(n)) == Some(n)
  {
    PadHasNoSeparators(n);
    assert Pad2(n) + " " + period == Pad2(n) + [' '] + period;
    SplitHead(Pad2(n), ' ', period);
    ParseIntPad2(n);
  }

  // ---------------------------------------------------------------------
  // The handlers
  // ---------------------------------------------------------------------

  /** A step of `user`'s conversation adds no other user and leaves every
      other user's entry as it was. */
  predicate OthersKept(before: Store, after: Store, user: string) {
    && after.Keys <= before.Keys + {user}
    && forall u :: u in before && u != user ==> u in after && after[u] == before[u]
  }

  /** `get_name`: push a draft holding the name and show this month. The
      push comes first, so when Telegram refuses the reply the draft stays
      while the conversation remains at the name question. */
  function GetName(s: ReminderState, user: string, name: string, env: Env): (r: (ReminderState, Reply))
    requires ValidEnv(env)
    ensures OthersKept(s.store, r.0.store, user)
    ensures user in r.0.store
    ensures r.0.store[user].records == [map[NameKey := Text(name)]] + EntryOf(s.store, user).records
    ensures r.0.phase == AwaitDate <==> env.nameReplyAccepted
  {
    var store := JsonEditor(s.store, user, NameKey, Text(name));
    assert store.Some? by { NamePushes(s.store, user, Text(name)); }
    if env.nameReplyAccepted then
      (ReminderState(AwaitDate, store.value), ShowCalendar(env.today.year, env.today.month))
    else
      (ReminderState(AwaitName, store.value), Raised)
  }

  /** `select_date`: a chosen day is written into the draft and the clock,
      seeded from the current time and the user's offset, is shown. */
  function SelectDate(s: ReminderState, user: string, token: string, env: Env): (r: (ReminderState, Reply))
    requires ValidEnv(env)
    ensures OthersKept(s.store, r.0.store, user)
    ensures !r.1.DatePicked? ==> r.0 == s
    ensures r.1.DatePicked? ==>
      && r.0.phase == AwaitTime && user in r.0.store && r.0.store[user].records != []
      && DateKey in r.0.store[user].records[0]
      && r.0.store[user].records[0][DateKey] == Text(r.1.dateText)
  {
    match Calendar.ProcessCalendarSelection(token)
    case CalendarIgnored => (s, NoReply)
    case Redrawn(y, m) => (s, ShowCalendar(y, m))
    case Raises => (s, Raised)
    case Chosen(d) =>
      var text := DateText(d);
      match JsonEditor(s.store, user, DateKey, Text(text))
      case None => (s, Raised)
      case Some(store) =>
        var face := Clock.SeedFace(env.hour, env.minute, UserTimezone(store, user));
        (ReminderState(AwaitTime, store), DatePicked(text, face))
  }

  /** `select_time`: a chosen time and a fresh reminder id are written into
      the draft and the question about extra information is asked. */
  function SelectTime(s: ReminderState, user: string, token: string, env: Env): (r: (ReminderState, Reply))
    ensures OthersKept(s.store, r.0.store, user)
    ensures !r.1.TimePicked? ==> r.0 == s
    ensures r.1.TimePicked? ==>
      && r.0.phase == AwaitInfoChoice && user in r.0.store && r.0.store[user].records != []
      && TimeKey in r.0.store[user].records[0] && IdKey in r.0.store[user].records[0]
      && r.0.store[user].records[0][TimeKey] == Text(r.1.timeText)
      && r.0.store[user].records[0][IdKey] == Number(env.draftId)
  {
    match Clock.ProcessClockSelection(token)
    case Ignored => (s, NoReply)
    case Redrawn(f) => (s, ShowClock(f))
    case Chosen(f) =>
      var text := TimeText(f);
      match JsonEditor(s.store, user, TimeKey, Text(text))
      case None => (s, Raised)
      case Some(store1) =>
        match JsonEditor(store1, user, IdKey, Number(env.draftId))
        case None => (s, Raised)
        case Some(store2) => (ReminderState(AwaitInfoChoice, store2), TimePicked(text))
  }

  /** `save_reminder`: the summary of the draft, with the extra information
      written into it when there is any; a draft that cannot be read ends
      the conversation with an apology. */
  function SaveReminder(s: ReminderState, user: string, info: string): (r: (ReminderState, Reply))
    ensures r.0.phase == Idle
    ensures r.1 == (match JsonGetter(s.store, user)
                    case None => SaveFailed
                    case Some((n, d, t, _)) => Saved(n, d, t))
    ensures JsonGetter(s.store, user).None? || info == "" ==> r.0.store == s.store
    ensures JsonGetter(s.store, user).Some? && info != "" ==>
      && JsonEditor(s.store, user, InfoKey, Text(info)).Some?
      && r.0.store == JsonEditor(s.store, user, InfoKey, Text(info)).value
      && InfoKey in r.0.store[user].records[0]
      && r.0.store[user].records[0][InfoKey] == Text(info)
  {
    match JsonGetter(s.store, user)
    case None => (ReminderState(Idle, s.store), SaveFailed)
    case Some((name, date, time, _)) =>
      var store := if info == "" then s.store else JsonEditor(s.store, user, InfoKey, Text(info)).value;
      (ReminderState(Idle, store), Saved(name, date, time))
  }

  /** One update handled by the conversation of `user`. */
  function ReminderStep(s: ReminderState, user: string, ev: Event, env: Env): (r: (ReminderState, Reply))
    requires ValidEnv(env)
    ensures OthersKept(s.store, r.0.store, user)
  {
    if s.phase == Idle then
      if ev == Command("reminder") then (s.(phase := AwaitName), AskName) else (s, NoReply)
    else if ev == Command("cancel") then
      (ReminderState(Idle, Cancel(s.store, user)), Cancelled)
    else
      match (s.phase, ev)
      case (AwaitName, Message(name)) => GetName(s, user, name, env)
      case (AwaitDate, Callback(token)) => SelectDate(s, user, token, env)
      case (AwaitTime, Callback(token)) => SelectTime(s, user, token, env)
      case (AwaitInfoChoice, Message(text)) =>
        if text == YesAnswer then (s.(phase := AwaitInfoText), AskInfoText) else SaveReminder(s, user, "")
      case (AwaitInfoText, Message(info)) => SaveReminder(s, user, info)
      case _ => (s, NoReply)
  }

  // ---------------------------------------------------------------------
  // Properties
  // ---------------------------------------------------------------------

  /** /cancel in any phase of the conversation drops the draft at the head
      of the user's list and ends the conversation. */
  lemma CancelAnywhere(s: ReminderState, user: string, env: Env)
    requires ValidEnv(env) && s.phase != Idle
    ensures ReminderStep(s, user, Command("cancel"), env) == (ReminderState(Idle, Cancel(s.store, user)), Cancelled)
  {
  }

  /** /cancel at the name question comes before `get_name` has pushed a
      draft, so the record it drops is the head of the user's earlier list:
      the reminder saved last. */
  lemma CancelBeforeNamePopsSaved(s: ReminderState, user: string, env: Env)
    requires ValidEnv(env) && s.phase == Idle
    requires user in s.store && s.store[user].records != []
    ensures var s1 := ReminderStep(s, user, Command("reminder"), env).0;
      var s2 := ReminderStep(s1, user, Command("cancel"), env).0;
      && s1.store == s.store
      && s2.phase == Idle
      && user in s2.store && s2.store[user].records == s.store[user].records[1..]
  {
  }

  /** What the draft at the head of the user's list holds in each phase:
      the name from the date question on, the date from the time question
      on, and all four summary fields from the extra-information question on. */
  predicate DraftReady(s: ReminderState, user: string) {
    var keys :=
      match s.phase
      case Idle => {}
      case AwaitName => {}
      case AwaitDate => {NameKey}
      case AwaitTime => {NameKey, DateKey}
      case AwaitInfoChoice => {NameKey, DateKey, TimeKey, IdKey}
      case AwaitInfoText => {NameKey, DateKey, TimeKey, IdKey};
    keys == {} || (user in s.store && s.store[user].records != [] && keys <= s.store[user].records[0].Keys)
  }

  /** Every step keeps the draft in step with the phase. */
  lemma StepKeepsDraftReady(s: ReminderState, user: string, ev: Event, env: Env)
    requires ValidEnv(env) && DraftReady(s, user)
    ensures DraftReady(ReminderStep(s, user, ev, env).0, user)
  {
    if s.phase != Idle && ev != Command("cancel") {
      match (s.phase, ev)
      case (AwaitDate, Callback(token)) =>
        if Calendar.ProcessCalendarSelection(token).Chosen? {
          var d := Calendar.ProcessCalendarSelection(token).date;
          FieldWriteKeepsRest(s.store, user, DateKey, Text(DateText(d)));
        }
      case (AwaitTime, Callback(token)) =>
        if Clock.ProcessClockSelection(token).Chosen? {
          var f := Clock.ProcessClockSelection(token).face;
          FieldWriteKeepsRest(s.store, user, TimeKey, Text(TimeText(f)));
          var store1 := JsonEditor(s.store, user, TimeKey, Text(TimeText(f))).value;
          FieldWriteKeepsRest(store1, user, IdKey, Number(env.draftId));
        }
      case _ =>
    }
  }

  /** With the draft in step, answering the extra-information question (no
      to the offer, or with the text) always saves: the summary shows the
      draft's name, date and time. */
  lemma SaveSucceeds(s: ReminderState, user: string, text: string, env: Env)
    requires ValidEnv(env) && DraftReady(s, user)
    requires s.phase == AwaitInfoText || (s.phase == AwaitInfoChoice && text != YesAnswer)
    ensures var rec := s.store[user].records[0];
      ReminderStep(s, user, Message(text), env).1 == Saved(rec[NameKey], rec[DateKey], rec[TimeKey])
  {
  }

  /** The name step pushes the draft, then moves on to the date question
      with this month's calendar, or stays at the name question when
      Telegram refuses the reply that quotes the name. */
  lemma NameStep(store: Store, user: string, name: string, env: Env)
    requires ValidEnv(env)
    ensures var pushed := JsonEditor(store, user, NameKey, Text(name)).value;
      ReminderStep(ReminderState(AwaitName, store), user, Message(name), env)
        == if env.nameReplyAccepted then (ReminderState(AwaitDate, pushed), ShowCalendar(env.today.year, env.today.month))
           else (ReminderState(AwaitName, pushed), Raised)
  {
  }

  /** Each refused name still pushes a draft: two names typed in a row,
      both refused, leave two drafts on top of the earlier records, the
      later name first, and the conversation still at the name question. */
  lemma RefusedNamesPile(store: Store, user: string, first: string, second: string, env: Env)
    requires ValidEnv(env) && !env.nameReplyAccepted
    ensures var s1 := ReminderStep(ReminderState(AwaitName, store), user, Message(first), env).0;
      var s2 := ReminderStep(s1, user, Message(second), env).0;
      && s2.phase == AwaitName
      && user in s2.store
      && s2.store[user].records
         == [map[NameKey := Text(second)], map[NameKey := Text(first)]] + EntryOf(store, user).records
  {
    NamePushes(store, user, Text(first));
    var st1 := JsonEditor(store, user, NameKey, Text(first)).value;
    NamePushes(st1, user, Text(second));
  }

  /** A press of the date picker that chooses a date writes its text into
      the draft and shows the clock, seeded from the current time and the
      user's offset. Which button chooses which date is
      `Calendar.DayTokenOutcome`. */
  lemma DateStep(store: Store, user: string, token: string, date: Date, env: Env)
    requires ValidEnv(env) && Calendar.ProcessCalendarSelection(token) == Calendar.Chosen(date)
    requires user in store && store[user].records != []
    ensures ValidDate(date)
    ensures ReminderStep(ReminderState(AwaitDate, store), user, Callback(token), env)
         == (ReminderState(AwaitTime, JsonEditor(store, user, DateKey, Text(DateText(date))).value),
             DatePicked(DateText(date), Clock.SeedFace(env.hour, env.minute, UserTimezone(store, user))))
  {
    var s := ReminderState(AwaitDate, store);
    assert ReminderStep(s, user, Callback(token), env) == SelectDate(s, user, token, env);
    var written := JsonEditor(store, user, DateKey, Text(DateText(date)));
    assert written.Some? && UserTimezone(written.value, user) == UserTimezone(store, user);
  }

  /** A press of the clock that chooses a face writes the time text and
      the reminder id into the draft and asks about extra information.
      Which button chooses which face is `Clock.ClockTokenOutcome`. */
  lemma TimeStep(store: Store, user: string, token: string, f: Clock.Face, env: Env)
    requires ValidEnv(env) && Clock.ProcessClockSelection(token) == Clock.Chosen(f)
    requires user in store && store[user].records != []
    ensures var s1 := ReminderStep(ReminderState(AwaitTime, store), user, Callback(token), env);
      var store1 := JsonEditor(store, user, TimeKey, Text(TimeText(f))).value;
      s1 == (ReminderState(AwaitInfoChoice, JsonEditor(store1, user, IdKey, Number(env.draftId)).value),
             TimePicked(TimeText(f)))
  {
    FieldWriteKeepsRest(store, user, TimeKey, Text(TimeText(f)));
  }

  /** Name, a chosen date and a chosen time fill the draft with the four
      summary fields, in that order, when Telegram accepts the reply that
      quotes the name (the refused case is `NameStep`). */
  lemma ConversationFills(store: Store, user: string, name: string, dateToken: string, date: Date,
                          timeToken: string, f: Clock.Face, env: Env)
    requires ValidEnv(env) && env.nameReplyAccepted
    requires Calendar.ProcessCalendarSelection(dateToken) == Calendar.Chosen(date)
    requires Clock.ProcessClockSelection(timeToken) == Clock.Chosen(f)
    ensures ValidDate(date)
    ensures var s1 := ReminderStep(ReminderState(AwaitName, store), user, Message(name), env).0;
      var s2 := ReminderStep(s1, user, Callback(dateToken), env).0;
      var s3 := ReminderStep(s2, user, Callback(timeToken), env).0;
      var st1 := JsonEditor(store, user, NameKey, Text(name)).value;
      var st2 := JsonEditor(st1, user, DateKey, Text(DateText(date))).value;
      var st3 := JsonEditor(st2, user, TimeKey, Text(TimeText(f))).value;
      s3 == ReminderState(AwaitInfoChoice, JsonEditor(st3, user, IdKey, Number(env.draftId)).value)
  {
    NameStep(store, user, name, env);
    var st1 := JsonEditor(store, user, NameKey, Text(name)).value;
    NamePushes(store, user, Text(name));
    DateStep(st1, user, dateToken, date, env);
    var st2 := JsonEditor(st1, user, DateKey, Text(DateText(date))).value;
    FieldWriteKeepsRest(st1, user, DateKey, Text(DateText(date)));
    TimeStep(st2, user, timeToken, f, env);
  }

  /** Declining extra information on a draft the getter can read saves
      it: the conversation ends and the summary shows the draft's name,
      date and time. */
  lemma DeclineSaves(s: ReminderState, user: string, answer: string, env: Env)
    requires ValidEnv(env) && s.phase == AwaitInfoChoice && answer != YesAnswer
    requires JsonGetter(s.store, user).Some?
    ensures var (n, d, t, _) := JsonGetter(s.store, user).value;
      ReminderStep(s, user, Message(answer), env) == (ReminderState(Idle, s.store), Saved(n, d, t))
  {
  }

  /** A whole conversation: a name, a press choosing a date, a press
      choosing a time and declining extra information save a reminder
      whose summary is the name, the date text and the time text. */
  lemma ReminderEndToEnd(store: Store, user: string, name: string, dateToken: string, date: Date,
                         timeToken: string, f: Clock.Face, answer: string, env: Env)
    requires ValidEnv(env) && env.nameReplyAccepted && answer != YesAnswer
    requires Calendar.ProcessCalendarSelection(dateToken) == Calendar.Chosen(date)
    requires Clock.ProcessClockSelection(timeToken) == Clock.Chosen(f)
    ensures ValidDate(date)
    ensures var s1 := ReminderStep(ReminderState(AwaitName, store), user, Message(name), env).0;
      var s2 := ReminderStep(s1, user, Callback(dateToken), env).0;
      var s3 := ReminderStep(s2, user, Callback(timeToken), env).0;
      ReminderStep(s3, user, Message(answer), env)
        == (ReminderState(Idle, s3.store), Saved(Text(name), Text(DateText(date)), Text(TimeText(f))))
  {
    ConversationFills(store, user, name, dateToken, date, timeToken, f, env);
    var st1 := JsonEditor(store, user, NameKey, Text(name)).value;
    var st2 := JsonEditor(st1, user, DateKey, Text(DateText(date))).value;
    var st3 := JsonEditor(st2, user, TimeKey, Text(TimeText(f))).value;
    var st4 := JsonEditor(st3, user, IdKey, Number(env.draftId)).value;
    GetterAfterDraft(store, user, Text(name), Text(DateText(date)), Text(TimeText(f)), Number(env.draftId));
    DeclineSaves(ReminderState(AwaitInfoChoice, st4), user, answer, env);
  }
}

=== FILE: text.dfy ===
/** The Python text primitives the bot relies on: `str.split` with an
    explicit separator, `str.join`, `str(int)`, `int(str)` and the `02d`
    zero padding of f-strings and `strftime`. */
module Text {
  import opened Wrappers

  // ---------------------------------------------------------------------
  // Splitting and joining on a one-character separator
  // ---------------------------------------------------------------------

  /** `sep.join(parts)` */
  function Join(parts: seq<string>, sep: char): string
    requires |parts| >= 1
    decreases |parts|
  {
    if |parts| == 1 then parts[0] else parts[0] + [sep] + Join(parts[1..], sep)
  }

  /** No piece contains the separator. */
  ghost predicate SeparatorFree(parts: seq<string>, sep: char) {
    forall i :: 0 <= i < |parts| ==> sep !in parts[i]
  }

  /** `s.split(sep)`: the pieces between occurrences of sep, empty pieces
      kept, so there is always at least one piece. */
  function Split(s: string, sep: char): (parts: seq<string>)
    ensures |parts| >= 1
    ensures SeparatorFree(parts, sep)
    ensures Join(parts, sep) == s
    decreases |s|
  {
    if |s| == 0 then [""]
    else
      var rest := Split(s[1..], sep);
      assert s == [s[0]] + s[1..];
      if s[0] == sep then
        [""] + rest
      else
        var parts := [[s[0]] + rest[0]] + rest[1..];
        assert parts[1..] == rest[1..];
        parts
  }

  /** A separator-free string is a single piece. */
  lemma {:induction false} SplitWhole(x: string, sep: char)
    requires sep !in x
    ensures Split(x, sep) == [x]
    decreases |x|
  {
    if |x| > 0 {
      SplitWhole(x[1..], sep);
      assert [x[0]] + x[1..] == x;
    }
  }

  /** A separator-free head followed by the separator is split off as
      the first piece. */
  lemma {:induction false} SplitHead(x: string, sep: char, tail: string)
    requires sep !in x
    ensures Split(x + [sep] + tail, sep) == [x] + Split(tail, sep)
    decreases |x|
  {
    var s := x + [sep] + tail;
    if |x| == 0 {
      assert s[1..] == tail;
    } else {
      assert s[1..] == x[1..] + [sep] + tail;
      SplitHead(x[1..], sep, tail);
      assert [x[0]] + x[1..] == x;
    }
  }

  /** Splitting undoes joining when no piece contains the separator. */
  lemma {:induction false} SplitJoin(parts: seq<string>, sep: char)
    requires |parts| >= 1 && SeparatorFree(parts, sep)
    ensures Split(Join(parts, sep), sep) == parts
    decreases |parts|
  {
    if |parts| == 1 {
      SplitWhole(parts[0], sep);
    } else {
      SplitJoin(parts[1..], sep);
      SplitHead(parts[0], sep, Join(parts[1..], sep));
    }
  }

  // ---------------------------------------------------------------------
  // Decimal digits
  // ---------------------------------------------------------------------

  predicate IsDigit(c: char) { '0' <= c <= '9' }

  predicate AllDigits(s: string) {
    forall i :: 0 <= i < |s| ==> IsDigit(s[i])
  }

  function DigitChar(n: nat): (c: char)
    requires n < 10
    ensures IsDigit(c)
  {
    (48 + n) as char
  }

  function DigitValue(c: char): (n: nat)
    ensures n < 10
    ensures IsDigit(c) ==> DigitChar(n) == c
  {
    if IsDigit(c) then c as int - 48 else 0
  }

  /** The number a decimal literal denotes, most significant digit first;
      underscores between digits are skipped, as Python does. */
  function DecimalValue(s: string): nat
    decreases |s|
  {
    if |s| == 0 then 0
    else if s[|s| - 1] == '_' then DecimalValue(s[..|s| - 1])
    else 10 * DecimalValue(s[..|s| - 1]) + DigitValue(s[|s| - 1])
  }

  /** `str(n)` for a non-negative n: decimal digits, no leading zeros. */
  function Digits(n: nat): (s: string)
    ensures |s| >= 1 && AllDigits(s)
    ensures DecimalValue(s) == n
    ensures n > 0 ==> s[0] != '0'
    decreases n
  {
    if n < 10 then [DigitChar(n)]
    else
      var s := Digits(n / 10) + [DigitChar(n % 10)];
      assert s[..|s| - 1] == Digits(n / 10);
      s
  }

  /** `str(n)` for any Python int. */
  function IntToString(n: int): (s: string)
    ensures |s| >= 1
    ensures forall i :: 0 <= i < |s| ==> IsDigit(s[i]) || (i == 0 && s[i] == '-')
  {
    if n < 0 then "-" + Digits(-n) else Digits(n)
  }

  function Zeros(k: nat): (s: string)
    ensures |s| == k && AllDigits(s)
    ensures forall i :: 0 <= i < k ==> s[i] == '0'
  {
    seq(k, i => '0')
  }

  /** Leading zeros do not change the value of a digit string. */
  lemma {:induction false} LeadingZerosValue(k: nat, s: string)
    requires AllDigits(s)
    ensures AllDigits(Zeros(k) + s)
    ensures DecimalValue(Zeros(k) + s) == DecimalValue(s)
    decreases |s|
  {
    var z := Zeros(k) + s;
    if |s| == 0 {
      assert z == Zeros(k);
      ZerosValue(k);
    } else {
      assert z[..|z| - 1] == Zeros(k) + s[..|s| - 1];
      LeadingZerosValue(k, s[..|s| - 1]);
    }
  }

  lemma {:induction false} ZerosValue(k: nat)
    ensures DecimalValue(Zeros(k)) == 0
    decreases k
  {
    if k > 0 {
      assert Zeros(k)[..k - 1] == Zeros(k - 1);
      ZerosValue(k - 1);
    }
  }

  /** `format(n, "0<width>d")` for a non-negative n, as `%d`, `%m`, `%Y`
      and the f-string `02d` format it. */
  function ZeroPad(n: nat, width: nat): (s: string)
    ensures |s| == if |Digits(n)| >= width then |Digits(n)| else width
    ensures AllDigits(s) && DecimalValue(s) == n
  {
    var d := Digits(n);
    LeadingZerosValue(if |d| >= width then 0 else width - |d|, d);
    if |d| >= width then d else Zeros(width - |d|) + d
  }

  /** The f-string `{n:02d}` for any int: a sign counts towards the width,
      so negative numbers are never padded. */
  function Pad2(n: int): string {
    if n >= 0 then ZeroPad(n, 2) else IntToString(n)
  }

  // ---------------------------------------------------------------------
  // int(text)
  // ---------------------------------------------------------------------

  /** The ASCII whitespace `int()` ignores around a number:
      space, tab, line feed, vertical tab, form feed, carriage return. */
  predicate IsSpace(c: char) { c == ' ' || ('\t' <= c <= '\r') }

  predicate AllSpace(s: string) {
    forall i :: 0 <= i < |s| ==> IsSpace(s[i])
  }

  /** Drops leading whitespace. */
  function TrimStart(s: string): (t: string)
    decreases |s|
  {
    if |s| > 0 && IsSpace(s[0]) then TrimStart(s[1..]) else s
  }

  /** Drops trailing whitespace. */
  function TrimEnd(s: string): (t: string)
    decreases |s|
  {
    if |s| > 0 && IsSpace(s[|s| - 1]) then TrimEnd(s[..|s| - 1]) else s
  }

  function Strip(s: string): string {
    TrimEnd(TrimStart(s))
  }

  /** Python's decimal literal body: a digit, then digits each optionally
      preceded by a single underscore (`1_000`). */
  predicate IsDigitGroups(b: string)
    decreases |b|
  {
    && |b| > 0
    && IsDigit(b[0])
    && (|b| == 1 || if b[1] == '_' then |b| > 2 && IsDigitGroups(b[2..]) else IsDigitGroups(b[1..]))
  }

  /** `int(text)` in base 10: surrounding whitespace, an optional sign,
      then digit groups; None where Python raises ValueError. */
  function ParseInt(text: string): Option<int> {
    ParseLiteral(Strip(text))
  }

  /** The stripped literal: an optional sign, then digit groups. */
  function ParseLiteral(t: string): Option<int> {
    if |t| > 0 && (t[0] == '+' || t[0] == '-') then
      var body := t[1..];
      if IsDigitGroups(body) then
        var v: int := DecimalValue(body);
        Some(if t[0] == '-' then -v else v)
      else None
    else if IsDigitGroups(t) then Some(DecimalValue(t))
    else None
  }

  /** Stripping leaves text alone whose ends are not whitespace. */
  lemma StripUnpadded(s: string)
    requires |s| > 0 && !IsSpace(s[0]) && !IsSpace(s[|s| - 1])
    ensures Strip(s) == s
  {
  }

  /** Whitespace around a core whose ends are not whitespace is stripped. */
  lemma {:induction false} StripPadded(lead: string, core: string, trail: string)
    requires AllSpace(lead) && AllSpace(trail)
    requires |core| > 0 && !IsSpace(core[0]) && !IsSpace(core[|core| - 1])
    ensures Strip(lead + core + trail) == core
  {
    TrimStartSpaces(lead, core + trail);
    assert lead + core + trail == lead + (core + trail);
    TrimEndSpaces(core, trail);
  }

  lemma {:induction false} TrimStartSpaces(lead: string, rest: string)
    requires AllSpace(lead)
    requires |rest| > 0 && !IsSpace(rest[0])
    ensures TrimStart(lead + rest) == rest
    decreases |lead|
  {
    if |lead| > 0 {
      assert (lead + rest)[1..] == lead[1..] + rest;
      TrimStartSpaces(lead[1..], rest);
    }
  }

  lemma {:induction false} TrimEndSpaces(rest: string, trail: string)
    requires AllSpace(trail)
    requires |rest| > 0 && !IsSpace(rest[|rest| - 1])
    ensures TrimEnd(rest + trail) == rest
    decreases |trail|
  {
    if |trail| > 0 {
      var s := rest + trail;
      assert s[..|s| - 1] == rest + trail[..|trail| - 1];
      TrimEndSpaces(rest, trail[..|trail| - 1]);
    } else {
      assert rest + trail == rest;
    }
  }


  /** `int()` reads back what `str()` writes. */
  lemma ParseIntToString(n: int)
    ensures ParseInt(IntToString(n)) == Some(n)
  {
    if n >= 0 {
      ParseIntDigits(Digits(n));
    } else {
      assert IntToString(n) == ['-'] + Digits(-n);
      ParseIntSigned('-', Digits(-n));
    }
  }

  /** `int()` accepts every zero-padded rendering of a non-negative number. */
  lemma ParseIntZeroPad(n: nat, width: nat)
    ensures ParseInt(ZeroPad(n, width)) == Some(n)
  {
    ParseIntDigits(ZeroPad(n, width));
  }

  /** `int()` reads back what `{n:02d}` writes. */
  lemma ParseIntPad2(n: int)
    ensures ParseInt(Pad2(n)) == Some(n)
  {
    if n >= 0 {
      ParseIntZeroPad(n, 2);
    } else {
      ParseIntToString(n);
    }
  }

  /** The accepted set, stated on its own terms: any whitespace, then
      decimal digits (leading zeros allowed), then any whitespace. */
  lemma ParseIntAcceptsPadded(lead: string, digits: string, trail: string)
    requires AllSpace(lead) && AllSpace(trail)
    requires |digits| > 0 && AllDigits(digits)
    ensures ParseInt(lead + digits + trail) == Some(DecimalValue(digits))
  {
    StripPadded(lead, digits, trail);
    ParseIntDigits(digits);
  }

  /** ... and the same with a `+` or `-` directly before the digits. */
  lemma ParseIntAcceptsSigned(lead: string, sign: char, digits: string, trail: string)
    requires AllSpace(lead) && AllSpace(trail)
    requires sign == '+' || sign == '-'
    requires |digits| > 0 && AllDigits(digits)
    ensures ParseInt(lead + [sign] + digits + trail)
         == Some(if sign == '-' then -(DecimalValue(digits) as int) else DecimalValue(digits) as int)
  {
    var core := [sign] + digits;
    assert lead + [sign] + digits + trail == lead + core + trail;
    StripPadded(lead, core, trail);
    ParseIntSigned(sign, digits);
  }

  /** A plain digit string denotes its value. */
  lemma ParseIntDigits(digits: string)
    requires |digits| > 0 && AllDigits(digits)
    ensures ParseInt(digits) == Some(DecimalValue(digits))
  {
    StripUnpadded(digits);
    DigitGroupsOfDigits(digits);
  }

  /** A sign followed by a digit string. */
  lemma ParseIntSigned(sign: char, digits: string)
    requires sign == '+' || sign == '-'
    requires |digits| > 0 && AllDigits(digits)
    ensures ParseInt([sign] + digits)
         == Some(if sign == '-' then -(DecimalValue(digits) as int) else DecimalValue(digits) as int)
  {
    var core := [sign] + digits;
    StripUnpadded(core);
    assert core[1..] == digits;
    DigitGroupsOfDigits(digits);
  }

  lemma {:induction false} DigitGroupsOfDigits(digits: string)
    requires |digits| > 0 && AllDigits(digits)
    ensures IsDigitGroups(digits)
    decreases |digits|
  {
    if |digits| > 1 {
      DigitGroupsOfDigits(digits[1..]);
    }
  }
}

=== FILE: tips.dfy ===
/** Daily eco tips: the `users` table of chosen times, the job queue of
    daily jobs, scheduling, restoring the schedule at start-up, and the
    choice of the tip a job sends. */
module Tips {
  import opened Wrappers
  import opened Text

  /** The ten tips, sent in rotation by day of the year. */
  const Tips: seq<string> := [
    "Выключайте свет и электроприборы, когда они не используются",
    "Рационально используйте энергоресурсы",
    "Предпочитайте упаковки многоразового использования",
    "Используйте многоразовые пакеты",
    "Потребляйте меньше продуктов животного происхождения",
    "Сортируйте отходы",
    "Выбирайте экологически чистые виды транспорта",
    "Поддерживайте местных проихводителей - покупайте продукты у месиных фермеров",
    "Рассказывайте друзьями и близким о проблеме глобального потепления!",
    "Поддерживайте организации , работающие над решением проблемы изменения климата, учавствуйте в акциях и инициативах"
  ]

  /** The zone scheduling falls back to. */
  const DefaultZone := "Europe/Moscow"

  /** A row of the `users` table. */
  datatype Row = Row(hour: int, minute: int, zone: string)

  /** The `users` table: user_id is the primary key. */
  type ScheduleDb = map<int, Row>

  /** A daily job: its name, the time of day and zone it fires at, and the
      chat (the user) it sends to. */
  datatype Job = Job(name: string, hour: int, minute: int, zone: string, chatId: int)

  type JobQueue = seq<Job>

  /** Jobs are named after the decimal user id. */
  function JobName(user: int): string {
    IntToString(user)
  }

  /** Distinct users get distinct job names, so one user's jobs never
      shadow another's. */
  lemma JobNameInjective(u: int, v: int)
    requires u != v
    ensures JobName(u) != JobName(v)
  {
    ParseIntToString(u);
    ParseIntToString(v);
  }

  /** `datetime.time(hour, minute)` accepts these and raises ValueError
      for anything else. */
  predicate ValidTime(hour: int, minute: int) {
    0 <= hour < 24 && 0 <= minute < 60
  }

  // ---------------------------------------------------------------------
  // The users table
  // ---------------------------------------------------------------------

  /** `save_user_time`: INSERT OR REPLACE keyed by user_id. */
  function SaveUserTime(db: ScheduleDb, user: int, hour: int, minute: int, zone: string): (r: ScheduleDb)
    ensures r.Keys == db.Keys + {user}
    ensures r[user] == Row(hour, minute, zone)
    ensures forall u :: u in db && u != user ==> r[u] == db[u]
  {
    db[user := Row(hour, minute, zone)]
  }

  /** Saving the same user twice keeps only the later time. */
  lemma SaveOverwrites(db: ScheduleDb, user: int, r1: Row, r2: Row)
    ensures SaveUserTime(SaveUserTime(db, user, r1.hour, r1.minute, r1.zone), user, r2.hour, r2.minute, r2.zone)
         == SaveUserTime(db, user, r2.hour, r2.minute, r2.zone)
  {
  }

  // ---------------------------------------------------------------------
  // The job queue
  // ---------------------------------------------------------------------

  /** The jobs of a queue with a given name, in queue order
      (`get_jobs_by_name`). */
  function Named(queue: JobQueue, name: string): (r: JobQueue)
    ensures forall i :: 0 <= i < |r| ==> r[i].name == name && r[i] in queue
    ensures forall j :: j in queue && j.name == name ==> j in r
    decreases |queue|
  {
    if |queue| == 0 then []
    else (if queue[0].name == name then [queue[0]] else []) + Named(queue[1..], name)
  }

  /** The queue after `schedule_removal` of every job with the name; the
      removal is taken to be immediate. */
  function RemoveNamed(queue: JobQueue, name: string): (r: JobQueue)
    ensures forall i :: 0 <= i < |r| ==> r[i].name != name && r[i] in queue
    ensures forall j :: j in queue && j.name != name ==> j in r
    decreases |queue|
  {
    if |queue| == 0 then []
    else (if queue[0].name == name then [] else [queue[0]]) + RemoveNamed(queue[1..], name)
  }

  lemma {:induction false} NamedAppend(a: JobQueue, b: JobQueue, name: string)
    ensures Named(a + b, name) == Named(a, name) + Named(b, name)
    decreases |a|
  {
    if |a| > 0 {
      assert (a + b)[1..] == a[1..] + b;
      NamedAppend(a[1..], b, name);
    } else {
      assert a + b == b;
    }
  }

  lemma {:induction false} RemoveNamedAppend(a: JobQueue, b: JobQueue, name: string)
    ensures RemoveNamed(a + b, name) == RemoveNamed(a, name) + RemoveNamed(b, name)
    decreases |a|
  {
    if |a| > 0 {
      var head := if a[0].name == name then [] else [a[0]];
      assert (a + b)[1..] == a[1..] + b;
      assert RemoveNamed(a + b, name) == head + RemoveNamed(a[1..] + b, name);
      RemoveNamedAppend(a[1..], b, name);
      assert RemoveNamed(a, name) == head + RemoveNamed(a[1..], name);
    } else {
      assert a + b == b;
    }
  }

  /** After the removal no job has the name. */
  lemma {:induction false} NamedAfterRemove(queue: JobQueue, name: string)
    ensures Named(RemoveNamed(queue, name), name) == []
    decreases |queue|
  {
    if |queue| > 0 {
      var head := if queue[0].name == name then [] else [queue[0]];
      NamedAppend(head, RemoveNamed(queue[1..], name), name);
      NamedAfterRemove(queue[1..], name);
    }
  }

  /** Removing one name leaves the jobs of every other name as they were. */
  lemma {:induction false} NamedOtherAfterRemove(queue: JobQueue, name: string, other: string)
    requires other != name
    ensures Named(RemoveNamed(queue, name), other) == Named(queue, other)
    decreases |queue|
  {
    if |queue| > 0 {
      var head := if queue[0].name == name then [] else [queue[0]];
      NamedAppend(head, RemoveNamed(queue[1..], name), other);
      NamedOtherAfterRemove(queue[1..], name, other);
    }
  }

  /** Removing a name a second time changes nothing. */
  lemma {:induction false} RemoveNamedIdempotent(queue: JobQueue, name: string)
    ensures RemoveNamed(RemoveNamed(queue, name), name) == RemoveNamed(queue, name)
    decreases |queue|
  {
    if |queue| > 0 {
      var head := if queue[0].name == name then [] else [queue[0]];
      RemoveNamedAppend(head, RemoveNamed(queue[1..], name), name);
      RemoveNamedIdempotent(queue[1..], name);
    }
  }

  // ---------------------------------------------------------------------
  // Scheduling
  // ---------------------------------------------------------------------

  /** The zone a job is given: the requested one if the timezone database
      knows it, otherwise Europe/Moscow; None when neither is known, where
      the fallback lookup raises and the outer handler swallows it. */
  function EffectiveZone(zone: string, zones: set<string>): (r: Option<string>)
    ensures r.Some? ==> r.value in zones
    ensures zone in zones ==> r == Some(zone)
    ensures zone !in zones ==> (r.Some? <==> DefaultZone in zones) && (r.Some? ==> r.value == DefaultZone)
  {
    if zone in zones then Some(zone)
    else if DefaultZone in zones then Some(DefaultZone)
    else None
  }

  /** `schedule_daily_tip`: every job named after the user is removed, then
      one daily job is added, unless the zone lookup or `time(hour, minute)`
      raises (the exception is logged and swallowed after the removal). */
  function ScheduleDailyTip(queue: JobQueue, user: int, hour: int, minute: int, zone: string, zones: set<string>): (r: JobQueue)
    ensures Named(r, JobName(user)) ==
      if EffectiveZone(zone, zones).Some? && ValidTime(hour, minute)
      then [Job(JobName(user), hour, minute, EffectiveZone(zone, zones).value, user)]
      else []
    ensures forall other :: other != JobName(user) ==> Named(r, other) == Named(queue, other)
  {
    var name := JobName(user);
    var kept := RemoveNamed(queue, name);
    var added := match EffectiveZone(zone, zones)
      case Some(tz) => if ValidTime(hour, minute) then [Job(name, hour, minute, tz, user)] else []
      case None => [];
    NamedAppend(kept, added, name);
    NamedAfterRemove(queue, name);
    forall other | other != name
      ensures Named(kept + added, other) == Named(queue, other)
    {
      NamedAppend(kept, added, other);
      NamedOtherAfterRemove(queue, name, other);
    }
    kept + added
  }

  /** Scheduling again with the same request leaves the queue as it was. */
  lemma ScheduleIdempotent(queue: JobQueue, user: int, hour: int, minute: int, zone: string, zones: set<string>)
    ensures var once := ScheduleDailyTip(queue, user, hour, minute, zone, zones);
      ScheduleDailyTip(once, user, hour, minute, zone, zones) == once
  {
    var name := JobName(user);
    var kept := RemoveNamed(queue, name);
    var once := ScheduleDailyTip(queue, user, hour, minute, zone, zones);
    var added := once[|kept|..];
    assert once == kept + added;
    RemoveNamedAppend(kept, added, name);
    RemoveNamedIdempotent(queue, name);
    assert RemoveNamed(added, name) == [] by {
      if |added| > 0 {
        assert added == [added[0]];
        assert RemoveNamed(added, name) == RemoveNamed(added[1..], name);
      }
    }
    assert RemoveNamed(once, name) == kept;
  }

  // ---------------------------------------------------------------------
  // Restoring at start-up
  // ---------------------------------------------------------------------

  /** A row the start-up loop turns into a job: its zone is known and
      `time(hour, minute)` accepts it. There is no fallback zone. */
  predicate Restorable(row: Row, zones: set<string>) {
    row.zone in zones && ValidTime(row.hour, row.minute)
  }

  function RestoredJob(user: int, row: Row): Job {
    Job(JobName(user), row.hour, row.minute, row.zone, user)
  }

  /** The rows `SELECT user_id, hour, minute, timezone FROM users` returns:
      every row of the table exactly once, in an order that is not fixed. */
  predicate RowsOf(db: ScheduleDb, rows: seq<(int, Row)>) {
    && (forall i :: 0 <= i < |rows| ==> rows[i].0 in db && db[rows[i].0] == rows[i].1)
    && (forall i, k :: 0 <= i < k < |rows| ==> rows[i].0 != rows[k].0)
    && (forall u :: u in db ==> exists i :: 0 <= i < |rows| && rows[i].0 == u)
  }

  /** The loop over the rows of `users` in `main`: one job per row that can
      be restored and none for the others, whatever the order of the rows. */
  method Restore(db: ScheduleDb, rows: seq<(int, Row)>, zones: set<string>) returns (queue: JobQueue)
    requires RowsOf(db, rows)
    ensures forall u :: u in db && Restorable(db[u], zones) ==> RestoredJob(u, db[u]) in queue
    ensures forall j :: 0 <= j < |queue| ==>
      queue[j].chatId in db && Restorable(db[queue[j].chatId], zones)
      && queue[j] == RestoredJob(queue[j].chatId, db[queue[j].chatId])
    ensures forall j, l :: 0 <= j < l < |queue| ==> queue[j].chatId != queue[l].chatId
  {
    queue := [];
    var k := 0;
    while k < |rows|
      invariant 0 <= k <= |rows|
      invariant forall i :: 0 <= i < k && Restorable(rows[i].1, zones) ==> RestoredJob(rows[i].0, rows[i].1) in queue
      invariant forall j :: 0 <= j < |queue| ==>
        queue[j].chatId in db && Restorable(db[queue[j].chatId], zones)
        && queue[j] == RestoredJob(queue[j].chatId, db[queue[j].chatId])
      invariant forall j, l :: 0 <= j < l < |queue| ==> queue[j].chatId != queue[l].chatId
      invariant forall j, i :: 0 <= j < |queue| && k <= i < |rows| ==> queue[j].chatId != rows[i].0
    {
      var (user, row) := rows[k];
      if Restorable(row, zones) {
        queue := queue + [RestoredJob(user, row)];
      }
      k := k + 1;
    }
    RowsCoverTable(db, rows, queue, zones);
  }

  /** A queue holding the job of every restorable fetched row holds the
      job of every restorable row of the table. */
  lemma RowsCoverTable(db: ScheduleDb, rows: seq<(int, Row)>, queue: JobQueue, zones: set<string>)
    requires RowsOf(db, rows)
    requires forall i :: 0 <= i < |rows| && Restorable(rows[i].1, zones) ==> RestoredJob(rows[i].0, rows[i].1) in queue
    ensures forall u :: u in db && Restorable(db[u], zones) ==> RestoredJob(u, db[u]) in queue
  {
  }

  /** Scheduling and restoring part ways on a zone the database does not
      know: scheduling falls back to Europe/Moscow, restoring adds nothing. */
  lemma RestoreHasNoFallback(user: int, row: Row, zones: set<string>)
    requires row.zone !in zones && DefaultZone in zones && ValidTime(row.hour, row.minute)
    ensures !Restorable(row, zones)
    ensures Named(ScheduleDailyTip([], user, row.hour, row.minute, row.zone, zones), JobName(user))
         == [Job(JobName(user), row.hour, row.minute, DefaultZone, user)]
  {
  }

  // ---------------------------------------------------------------------
  // Firing a job
  // ---------------------------------------------------------------------

  /** What `send_daily_tip` does for a user: nothing without a row; an
      exception escaping the job when the stored zone is unknown; otherwise
      the tip of the day. */
  datatype TipOutcome = NoTip | TipRaises | SendTip(index: int, text: string)

  /** `send_daily_tip`; dayOfYear is `tm_yday` of the current date in the
      stored zone. */
  function FireTip(db: ScheduleDb, user: int, zones: set<string>, dayOfYear: int): (r: TipOutcome)
    ensures r.NoTip? <==> user !in db
    ensures r.TipRaises? <==> user in db && db[user].zone !in zones
    ensures r.SendTip? ==> 0 <= r.index < |Tips| && r.text == Tips[r.index]
    ensures r.SendTip? ==> r.index == dayOfYear % |Tips|
  {
    if user !in db then NoTip
    else if db[user].zone !in zones then TipRaises
    else
      var i := dayOfYear % |Tips|;
      SendTip(i, Tips[i])
  }

  /** The tip depends on the day only and moves one place along the list
      a day, coming back every ten days. */
  lemma TipRotation(db: ScheduleDb, user: int, zones: set<string>, day: int)
    requires user in db && db[user].zone in zones
    ensures FireTip(db, user, zones, day).SendTip?
    ensures FireTip(db, user, zones, day + 1).index == (FireTip(db, user, zones, day).index + 1) % 10
    ensures FireTip(db, user, zones, day + 10) == FireTip(db, user, zones, day)
  {
  }
}

=== FILE: updates.dfy ===
/** What a conversation handler receives from a user. */
module Updates {

  /** A command (`/name`), an inline-button press carrying its callback
      data, or a text message that is not a command. */
  datatype Event = Command(name: string) | Callback(data: string) | Message(text: string)
}

=== FILE: wrappers.dfy ===
/** The optional value used for lookups and parses that may fail. */
module Wrappers {

  datatype Option<+T> = None | Some(value: T) {

    /** The value carried by Some, or the default for None. */
    function GetOr(default: T): T {
      match this
      case Some(v) => v
      case None => default
    }
  }
}
